=== FILE: README.md ===
# ptop, modelled in Dafny

ptop is a small terminal process monitor in the spirit of `top`: one Python
file (`src/ptop/main.py`) that reads the Linux `/proc` pseudo-filesystem and
draws one of two pages with curses, refreshing about five times a second. The
process page shows a table of processes ranked by CPU%. The summary page shows
the memory figures and a bar graph of recent system CPU utilisation. Arrow
keys scroll and switch pages, and `q` quits.

This project models the computing core of that file as pure Dafny functions
and proves properties about it:

- `wrappers.dfy` (`Wrappers`): `Option`, and `Result` whose error side names
  the Python exception (`IndexError`, `ValueError`, `KeyError`,
  `StopIteration`, `ZeroDivisionError`, `OSError`).
- `text.dfy` (`Text`): the Python string operations the core relies on.
  These are `int()` of a field, `str.strip`, `startswith`, slicing, field
  access and the search for the first line with a prefix. A text file is a
  sequence of lines, each already split on whitespace.
- `cpu.dfy` (`Cpu`): `get_cpu_usage`, that is the counters of the `cpu` line
  of `/proc/stat`, the baseline and the utilisation since the previous call.
- `memory.dfy` (`Memory`): `get_total_memory` and `get_memory_info`.
- `processes.dfy` (`Processes`): reading one process. This covers the
  command line fallback, the owner lookup, CPU% since start and MEM% of
  total memory, with every exception as an error value.
- `ranking.dfy` (`Ranking`): the stable descending sort by CPU%.
- `snapshot.dfy` (`Snapshot`): `read_processes`. Failing processes are
  skipped, and the rest is ranked.
- `history.dfy` (`History`): the CPU history buffer, capped at the terminal
  width.
- `render.dfy` (`Render`): frame geometry. This covers the size check, the
  visible slice of the process list, the bars of the CPU graph and the
  `draw_box` clamp.
- `dashboard.dfy` (`Dashboard`): the key handling state machine and one tick
  of the main loop (render, then sample the CPU, then handle one key).

Some inputs come from outside the program. These are the file contents, the
directory listing, the clock-tick rate, the uptime, the user database, the
terminal size and the pending keys. They are all parameters. A file that
vanished before it could be opened is `None`, and reading it yields
`OSError`.

Some behaviours of the code are easy to misread; the model follows the code
in each:

- The graph's bar height is `int(...)`, which truncates, not rounds.
- There are two pages: page 0 shows the processes, page 1 the summary
  beside the CPU graph.
- The scroll offset is capped only at 1000, not at the length of the process
  list.
- The history is cut with `[-width:]`. With a width of 0 that keeps
  everything, and the model reproduces this.
- `get_total_memory` takes the first `MemTotal:` line. `get_memory_info`
  fills a dictionary, so there the last matching line wins
  (`Memory.FirstAndLastTotalDiffer`).
- A `MemTotal:` value of 0 is not replaced by the fallback 1. Every MEM%
  division then raises, so every process is skipped.

## Model

| member | source | states |
|---|---|---|
| Wrappers.FromFile | src/ptop/main.py:43-51 | opening a file that is gone raises `OSError`; otherwise its content is read |
| Text.ParseInt | src/ptop/main.py:53 | `int()` of a field succeeds exactly when the field is digits, or a `+` or `-` followed by at least one digit, so an empty field or a lone sign is a `ValueError`; the value is the digits' value, negated after a `-` |
| Text.ParseDigits | src/ptop/main.py:53 | a non-empty run of ASCII digits reads as its value, and with a leading `-` as its negation |
| Text.ParseShowRoundTrip | src/ptop/main.py:16 | every integer the kernel writes in decimal is read back by `int()` as exactly that integer |
| Text.Take | src/ptop/main.py:124 | `s[:k]` is a prefix of `s` of length `min(k, len(s))` |
| Text.Slice | src/ptop/main.py:123 | `s[lo:hi]` holds the elements of `s` from `lo` on, `hi - lo` of them clamped to the length, and is empty past the end or for a reversed range |
| Text.StripLeft | src/ptop/main.py:46 | only characters of the strip set are removed from the front, and the result starts with a kept character |
| Text.StripRight | src/ptop/main.py:46 | only characters of the strip set are removed from the back, and the result ends with a kept character |
| Text.Strip | src/ptop/main.py:46-48 | the stripped text neither starts nor ends with a stripped character, and it is empty exactly when every character is stripped |
| Text.StripKeepsTheMiddle | src/ptop/main.py:46-48 | stripping removes only stripped characters, and only at the two ends: the result is the run of the text that starts at its first kept character |
| Text.FirstWithPrefix | src/ptop/main.py:52 | `next(...)` over the lines finds the first line with the prefix, and finds nothing exactly when no line has it |
| Text.Field | src/ptop/main.py:48 | indexing a split line succeeds exactly within its length |
| Text.IntField | src/ptop/main.py:53 | `int(parts[i])` succeeds exactly when the field exists and is an integer, and raises `IndexError` past the end |
| Cpu.ParseAll | src/ptop/main.py:82 | `list(map(int, ...))` succeeds exactly when every field is an integer, and converts each field in place; otherwise `ValueError` |
| Cpu.Counters | src/ptop/main.py:82 | reading the counters succeeds exactly when fields 1 to 7 of the `cpu` line (fewer on a short line) are all integers, and otherwise raises `ValueError`; the counters are those fields, each converted |
| Cpu.Usage | src/ptop/main.py:85-89 | utilisation times elapsed ticks equals 100 times the non-idle ticks; 0 when no tick elapsed; within [0, 100] whenever idle ticks grew by no more than all ticks |
| Cpu.CpuUsage | src/ptop/main.py:79-92 | the call succeeds exactly when the counters parse and idle and iowait exist; the baseline is the sum of the counters and idle plus iowait; the first reading is 0, later ones are the usage since the previous baseline |
| Cpu.SumGrowth | src/ptop/main.py:83-88 | when no counter goes backwards, the total of the counters grows by at least the growth of idle plus iowait |
| Cpu.RisingCountersUsageInRange | src/ptop/main.py:85-89 | two readings of a well-formed `cpu` line whose counters never go back give a usage within [0, 100] |
| Cpu.UsageExample | src/ptop/main.py:87-89 | 200 elapsed ticks of which 50 idle give 75% |
| Memory.TotalMemory | src/ptop/main.py:12-17 | the value of the first `MemTotal:` line, the exception that reading it raises, or 1 when no line has that label |
| Memory.Scan | src/ptop/main.py:20-25 | the loop fails exactly when some line is empty or a tracked line's value does not read; otherwise each tracked key holds its last line's value and no other key is added |
| Memory.MemoryInfo | src/ptop/main.py:19-29 | succeeds exactly when every line is readable; used plus free is total; total is the last `MemTotal:` value or 1; free is the last `MemFree:`, `Buffers:` and `Cached:` values, 0 when absent |
| Memory.FourLinesValues | src/ptop/main.py:21-25 | in a meminfo listing each tracked field once, every tracked field reads back as the value written |
| Memory.OneLineEach | src/ptop/main.py:19-29 | a meminfo listing each tracked field once reports that total, free as the sum of MemFree, Buffers and Cached, and used as the rest |
| Memory.FirstAndLastTotalDiffer | src/ptop/main.py:12-29 | with two `MemTotal:` lines, the process page divides by the first and the summary page shows the last |
| Processes.NulToSpace | src/ptop/main.py:46 | each NUL of the command line becomes a blank and every other character is kept in place |
| Processes.BlankStripsToNothing | src/ptop/main.py:46-47 | the cleaned command line is empty exactly when it holds only NULs and whitespace |
| Processes.Command | src/ptop/main.py:45-48 | a non-blank command line is shown with its NULs turned to blanks and its whitespace stripped, and is then non-empty; a blank one falls back to the parenthesis-stripped name of the `stat` record, which raises `IndexError` only when that record is shorter than two fields |
| Processes.Owner | src/ptop/main.py:52-54 | no `Uid:` line raises `StopIteration`; otherwise the first one's uid is read and looked up; a uid that does not read raises what `int()` raises, and an unknown uid raises `KeyError` |
| Processes.ResidentKb | src/ptop/main.py:64-65 | the first `VmRSS:` line's value, or 0 when there is none |
| Processes.CpuPercent | src/ptop/main.py:56-61 | raises exactly when the tick rate is 0; otherwise CPU% times lifetime times the tick rate is 100 times the process's ticks, 0 for a process not yet alive, and never negative for non-negative tick counts |
| Processes.MemPercent | src/ptop/main.py:66 | raises exactly when total memory is 0; otherwise MEM% times total is 100 times the resident size, within [0, 100] when the resident size is within the total |
| Processes.ReadRecord | src/ptop/main.py:42-74 | a record is produced only when all three files were read, the `stat` record reaches field 22, and the tick rate and total memory are non-zero; each of its fields is the value the corresponding step computes |
| Processes.ReadRecordSucceeds | src/ptop/main.py:42-74 | a record is produced exactly when all three files were read and the command, owner, three tick counters and resident size all read, with a non-zero tick rate and total memory; any one failing step leaves the process out |
| Processes.YoungProcessShowsNoCpu | src/ptop/main.py:60-61 | a process whose start time is not before the uptime shows 0 CPU% |
| Processes.CpuNotNegative | src/ptop/main.py:59-61 | a positive tick rate and non-negative tick counts give a non-negative CPU% |
| Processes.NoResidentSetShowsNoMem | src/ptop/main.py:64-66 | a process without a `VmRSS:` line shows 0 MEM% |
| Processes.ShortStatFails | src/ptop/main.py:56-58 | a `stat` record shorter than 22 fields makes the reading fail |
| Ranking.Insert | src/ptop/main.py:77 | inserting into a list sorted by CPU% keeps it sorted, one record longer, headed by the new record or the old head |
| Ranking.InsertPermutes | src/ptop/main.py:77 | inserting adds exactly the one record and loses none |
| Ranking.SortByCpu | src/ptop/main.py:77 | the result is sorted by CPU% from highest to lowest and as long as the input |
| Ranking.SortPermutes | src/ptop/main.py:77 | the ranking is a permutation of the records read |
| Ranking.InsertWithCpu | src/ptop/main.py:77 | an inserted record goes ahead of the records whose CPU% it ties |
| Ranking.SortIsStable | src/ptop/main.py:77 | records with equal CPU% come out in the order they went in |
| Ranking.SameHead | src/ptop/main.py:77 | two sorted lists that agree on the order within every CPU% value start with the same record |
| Ranking.SortedAndStableIsUnique | src/ptop/main.py:77 | two lists sorted by CPU% that agree on the order within every CPU% value are equal |
| Ranking.RankingIsTheStableSort | src/ptop/main.py:77 | any arrangement sorted by CPU% that keeps ties in input order is the ranking |
| Snapshot.IsPidName | src/ptop/main.py:41 | a listing name passes the `isdigit` filter exactly when it starts with a digit and `int()` accepts it, and it then reads as the number it spells |
| Snapshot.Attempt | src/ptop/main.py:41-76 | a listing entry yields a record exactly when its name is all digits and its reading succeeds, and then the record is that reading with the name as pid |
| Snapshot.Listed | src/ptop/main.py:42-76 | one listing entry adds at most one record |
| Snapshot.Collect | src/ptop/main.py:41-76 | the loop keeps at most one record per listing entry |
| Snapshot.CollectAppend | src/ptop/main.py:41-76 | the loop walks the listing in order: the records of two runs of entries are those of the first run followed by those of the second |
| Snapshot.CollectOne | src/ptop/main.py:42-76 | a single entry contributes its record, or nothing when reading it raised |
| Snapshot.CollectMembers | src/ptop/main.py:41-76 | a record is kept exactly when some listing entry reads as it |
| Snapshot.CollectSound | src/ptop/main.py:41-76 | every record kept comes from a listing entry that reads as it |
| Snapshot.CollectComplete | src/ptop/main.py:41-76 | every listing entry that reads as a record contributes that record |
| Snapshot.ReadProcesses | src/ptop/main.py:35-77 | fails exactly when reading the total memory fails; otherwise the snapshot is the readable records, sorted by CPU%, in a stable order |
| Snapshot.SnapshotHoldsExactlyTheReadable | src/ptop/main.py:41-77 | a process is in the snapshot exactly when its entry is numeric and its reading succeeds |
| Snapshot.FailureIsSkipped | src/ptop/main.py:75-76 | a process whose reading fails, anywhere in the listing, changes nothing about the other records |
| History.LastSlice | src/ptop/main.py:191 | `s[-k:]` keeps the last `k` elements, and for `k == 0` keeps all of them |
| History.Record | src/ptop/main.py:189-191 | after one tick the buffer ends with the new sample, holds `min(len + 1, width)` samples for a positive width, and keeps the newest of the old ones in order |
| History.RecordIsNewest | src/ptop/main.py:189-191 | one tick on a history no longer than the width keeps exactly the newest `width` samples |
| History.Newest | src/ptop/main.py:191 | the newest `w` samples number `min(len, w)` |
| History.NewestOfNewest | src/ptop/main.py:190-191 | cutting to the newest `w` before appending more and cutting again is the same as cutting once |
| History.RecordAllKeepsNewest | src/ptop/main.py:188-191 | after any run of ticks at one width the buffer is exactly the newest `width` samples of everything seen, in order |
| History.HistoryFromEmpty | src/ptop/main.py:188-191 | after `n` ticks from an empty history the buffer holds `min(n, width)` samples, the latest last |
| Render.ClampBox | src/ptop/main.py:95-100 | a box is drawn exactly when it is at least 2 by 2 after clamping; the clamped box fits in the window, is no larger than asked, and is cut only at the window's edge |
| Render.RowOf | src/ptop/main.py:124 | a row keeps pid, CPU% and MEM%, cuts the user to 10 characters and the command to `width - 37` |
| Render.ProcessRows | src/ptop/main.py:117-125 | the page shows at most `height - 4` rows, row `i` being process `offset + i`, and as many as remain after the offset |
| Render.Trunc | src/ptop/main.py:149 | `int()` of a float truncates toward zero |
| Render.BarAt | src/ptop/main.py:147-151 | graph column `i` shows the `i`-th newest sample at screen column `width - i - 2`, and a non-negative sample's bar is the whole part of its share of the graph's height |
| Render.Bars | src/ptop/main.py:145-149 | the graph has `min(len(history), right_w)` columns, column `i` showing `history[-i-1]` |
| Render.BarCells | src/ptop/main.py:150-151 | a bar paints as many cells as its height, none for a height of 0 or less, bottom-up from row `height - 1`: cell `j` is on row `height - 1 - j`, so the cells fill exactly the rows `height - n` to `height - 1` |
| Render.BarsRunRightToLeft | src/ptop/main.py:145-151 | the newest sample is drawn at column `width - 2`, older ones further left, all within the right half |
| Render.BarFitsGraph | src/ptop/main.py:149-151 | a sample in [0, 100] gives a bar no taller than the graph, painted on rows 1 to `height - 1` |
| Render.RenderFrame | src/ptop/main.py:164-180 | the notice is shown exactly when the terminal is below 60 by 16; the process page fails exactly when the snapshot fails, and the summary page exactly when the memory figures fail; otherwise page 0 shows the visible rows of the snapshot and page 1 the memory figures and the graph's bars |
| Render.SmallTerminalShowsNotice | src/ptop/main.py:165-168 | a 40 by 10 terminal gets only the notice |
| Dashboard.HandleKey | src/ptop/main.py:193-208 | `q` quits and nothing else does; valid views stay valid; left and right change page and go back to the top; up and down scroll by one on the process page only, within [0, 1000], and change nothing at either bound; other keys change nothing |
| Dashboard.NextKey | src/ptop/main.py:194 | `getch` in no-delay mode returns the first waiting key, or -1 when none waits |
| Dashboard.Run | src/ptop/main.py:193-208 | over a run of key presses, only a `q` ends the loop, and any `q` does |
| Dashboard.RunStaysValid | src/ptop/main.py:193-208 | no sequence of keys leaves the valid views |
| Dashboard.ScrollDownStopsAtCap | src/ptop/main.py:195-197 | pressing down `n` times scrolls to `min(start + n, 1000)` |
| Dashboard.RightThenLeft | src/ptop/main.py:201-206 | right then left returns to the same page at the top |
| Dashboard.RightWrapsAround | src/ptop/main.py:201-203 | right on the last page wraps to the first |
| Dashboard.Draw | src/ptop/main.py:164-180 | a tick draws the notice on a too-small terminal; otherwise page 0 shows the rows of the process list read now, page 1 the memory figures read now and the graph, and each fails exactly when its read does |
| Dashboard.Advance | src/ptop/main.py:187-208 | after drawing, a tick succeeds exactly when the CPU sample does, keeps the frame drawn, consumes one key, stops exactly on `q`, and otherwise moves to the key's view with the new baseline and the sample recorded |
| Dashboard.Tick | src/ptop/main.py:163-208 | a too-small terminal changes no state and consumes no key; otherwise a tick succeeds exactly when both drawing and the CPU sample do, shows the frame drawn, consumes exactly one key, moves to that key's view, records the sample into the history as `History.Record` does (the newest `width` samples of the old history and the new one), keeps the view valid, and stops exactly on `q` |
| Dashboard.TickRecordsSample | src/ptop/main.py:188-191 | a tick that goes on records its usage as `History.Record` does: at most `width` samples, the newest being this tick's usage and the rest the newest of the old history; and it remembers this tick's counters |
| Dashboard.FirstSampleIsZero | src/ptop/main.py:157-161 | the loop starts valid, on the process page at the top with no reading, so the first tick records a usage of 0 and the history becomes `[0]` |
| Dashboard.FrameIgnoresThisTicksSample | src/ptop/main.py:176-188 | the frame is drawn before the CPU is sampled, so this tick's `/proc/stat` does not change it |
| Dashboard.SampleShowsNextTick | src/ptop/main.py:176-191 | the sample recorded in one tick is the rightmost bar of the next tick's graph |

## Left out

- Painting: the curses calls, their attributes, the header and footer text,
  the `{:5.1f}` number formats and the `curses.error` a box raises off screen
  are not modelled. A `Frame` is the data one tick draws, not what the
  screen shows afterwards.
- Screen contents: the `prev_page` bookkeeping and the `stdscr.clear()`
  calls are left out. The screen is cleared when the page changes and on
  every tick of page 1, but page 0 is not cleared between ticks, so text the
  current tick does not overwrite stays visible. After scrolling down a
  list that fits, the old last row is still shown below the new one, and a
  shorter command leaves the tail of a longer previous one. The model says
  nothing about these leftovers.
- Timing: `time.sleep` and the endless `while True` are left out. A tick is
  one pass of the loop, and `Dashboard.Run` strings key presses together.
- The uptime from `/proc/uptime`, the tick rate from `os.sysconf` and the
  user database from `pwd` are parameters (`Host`), not reads; the model
  does not parse the uptime's float. `/proc/loadavg` and `os.cpu_count` only
  feed the summary page's load and core count lines, which are display only,
  so they are left out altogether.
- Floating point: CPU% and MEM% are exact reals, not IEEE doubles, so
  rounding in the last place is not modelled.
- Text.ParseInt: does not accept the underscores (`1_000`) and non-ASCII
  digits that Python's `int()` also accepts. The kernel never writes them.
- Snapshot.IsPidName: ASCII digits only. Python's `str.isdigit` also accepts
  other Unicode digits, which never appear in `/proc`.
- Processes.ReadRecord: `/proc/<pid>/status` is opened twice in the source,
  and the model reads it once. A process that exits between the two opens is
  not modelled.
- Processes.ReadRecord: a command name containing blanks shifts the split
  `stat` fields. The source does not handle this, and the model inherits the
  same misreading.
- Lines are modelled already split on whitespace. `startswith` is checked on
  the first field, which matches the source for `/proc` files, whose lines
  never begin with blanks.
- Dashboard.Tick: the bare `except` around the key handling catches an error
  of `getch`, which the model treats as "no key". It also swallows a
  `KeyboardInterrupt` that arrives while the key is handled; signals are
  not modelled.

=== FILE: cpu.dfy ===
/** System-wide CPU utilisation from the aggregate `cpu` line of `/proc/stat`
    (`get_cpu_usage`, src/ptop/main.py:79-92).

    The line's fields after the `cpu` label are the kernel's jiffy counters
    user, nice, system, idle, iowait, irq, softirq, ...; the first seven are
    summed into a total and idle + iowait counts as idle. Utilisation is the
    busy share of the ticks elapsed since the previous call's baseline. */
module Cpu {
  import opened Wrappers
  import opened Text

  /** The `(total, idle)` pair a call hands back for the next call. */
  datatype Baseline = Baseline(total: int, idle: int)

  function Sum(xs: seq<int>): int {
    if |xs| == 0 then 0 else Sum(xs[..|xs| - 1]) + xs[|xs| - 1]
  }

  /** `list(map(int, fields))`: every field converted, or `ValueError`. */
  function ParseAll(fields: seq<string>): (r: Result<seq<int>>)
    ensures r.Ok? <==> forall i :: 0 <= i < |fields| ==> ParseInt(fields[i]).Some?
    ensures r.Ok? ==> |r.value| == |fields|
    ensures r.Ok? ==> forall i :: 0 <= i < |fields| ==> ParseInt(fields[i]) == Some(r.value[i])
    ensures r.Err? ==> r.fault == ValueError
  {
    if |fields| == 0 then Ok([])
    else
      match ParseInt(fields[0])
      case None => Err(ValueError)
      case Some(v) =>
        var rest :- ParseAll(fields[1..]);
        Ok([v] + rest)
  }

  /** The counters `get_cpu_usage` reads: `fields[1:8]`, converted to integers. */
  function Counters(fields: Fields): (r: Result<seq<int>>)
    ensures r.Ok? <==> forall i :: 1 <= i < Min(8, |fields|) ==> ParseInt(fields[i]).Some?
    ensures r.Err? ==> r.fault == ValueError
    ensures r.Ok? ==> |r.value| == (if 8 <= |fields| then 7 else if |fields| <= 1 then 0 else |fields| - 1)
    ensures r.Ok? ==> forall i :: 0 <= i < |r.value| ==> ParseInt(fields[i + 1]) == Some(r.value[i])
  {
    ParseAll(Slice(fields, 1, 8))
  }

  /** Utilisation between two baselines: the share of elapsed ticks that were
      not idle, in percent, or 0 when no tick elapsed. */
  function Usage(prev: Baseline, cur: Baseline): (u: real)
    ensures cur.total - prev.total <= 0 ==> u == 0.0
    ensures cur.total - prev.total > 0 ==>
      u * (cur.total - prev.total) as real == 100.0 * ((cur.total - prev.total) - (cur.idle - prev.idle)) as real
    ensures 0 <= cur.idle - prev.idle <= cur.total - prev.total ==> 0.0 <= u <= 100.0
  {
    var deltaTotal := cur.total - prev.total;
    var deltaIdle := cur.idle - prev.idle;
    if deltaTotal > 0 then 100.0 * (1.0 - deltaIdle as real / deltaTotal as real) else 0.0
  }

  /** `get_cpu_usage(prev)` on the already-split first line of `/proc/stat`:
      the usage since `prev` (0 on the first call) and the new baseline, or the
      exception the conversion raises. */
  function CpuUsage(fields: Fields, prev: Option<Baseline>): (r: Result<(real, Baseline)>)
    ensures r.Ok? <==> Counters(fields).Ok? && 6 <= |fields|
    ensures r.Ok? ==> r.value.1.total == Sum(Counters(fields).value)
    ensures r.Ok? ==> r.value.1.idle == ParseInt(fields[4]).value + ParseInt(fields[5]).value
    ensures r.Ok? && prev.None? ==> r.value.0 == 0.0
    ensures r.Ok? && prev.Some? ==> r.value.0 == Usage(prev.value, r.value.1)
  {
    var parts :- Counters(fields);
    if |parts| < 5 then Err(IndexError)
    else
      var cur := Baseline(Sum(parts), parts[3] + parts[4]);
      var usage := match prev
        case None => 0.0
        case Some(p) => Usage(p, cur);
      Ok((usage, cur))
  }

  /** Counters that never go backwards, position by position. */
  predicate Rising(before: seq<int>, after: seq<int>) {
    |before| == |after| && forall i :: 0 <= i < |before| ==> before[i] <= after[i]
  }

  /** When counters only grow, the total grows at least by the growth of the
      idle and iowait counters. */
  lemma {:induction false} SumGrowth(before: seq<int>, after: seq<int>)
    requires Rising(before, after)
    ensures Sum(after) - Sum(before)
      >= (if 3 < |before| then after[3] - before[3] else 0) + (if 4 < |before| then after[4] - before[4] else 0)
  {
    var n := |before|;
    if n > 0 {
      SumGrowth(before[..n - 1], after[..n - 1]);
    }
  }

  /** Two readings of counters that never go backwards give a usage within
      [0, 100]. */
  lemma RisingCountersUsageInRange(before: Fields, after: Fields)
    requires CpuUsage(before, None).Ok? && Counters(after).Ok? && |before| == |after|
    requires Rising(Counters(before).value, Counters(after).value)
    ensures CpuUsage(after, Some(CpuUsage(before, None).value.1)).Ok?
    ensures 0.0 <= CpuUsage(after, Some(CpuUsage(before, None).value.1)).value.0 <= 100.0
  {
    var a := Counters(before).value;
    var b := Counters(after).value;
    SumGrowth(a, b);
  }

  /** From (1000, 800) to (1200, 850): 50 of 200 ticks idle, so 75% busy. */
  lemma UsageExample()
    ensures Usage(Baseline(1000, 800), Baseline(1200, 850)) == 75.0
  {
  }
}

=== FILE: dashboard.dfy ===
/** The control loop of `draw` (src/ptop/main.py:153-208): the key handling
    state machine and one tick of the loop.

    The view is a page, 0 for processes and 1 for the summary with the CPU
    graph, and a scroll offset kept within [0, 1000]. A tick first renders
    the current page, then samples the CPU and records the sample, then
    handles at most one pending key; on a terminal below the minimum size it
    shows the notice and does none of the rest. */
module Dashboard {
  import opened Wrappers
  import opened Text
  import opened Cpu
  import opened Memory
  import opened Processes
  import opened History
  import opened Snapshot
  import opened Render

  /** Key codes as curses's `getch` returns them; -1 when no key is pending. */
  const KeyNone := -1
  const KeyDown := 258
  const KeyUp := 259
  const KeyLeft := 260
  const KeyRight := 261
  const KeyQuit := 113

  const PageCount := 2
  const OffsetCeiling := 1000

  datatype View = View(page: int, offset: int)

  /** The states the loop can be in: a known page, an offset within the cap. */
  predicate Valid(v: View) {
    0 <= v.page < PageCount && 0 <= v.offset <= OffsetCeiling
  }

  datatype Outcome = Continue(view: View) | Quit

  /** The key handling of one tick. Up and down scroll only on page 0 and
      stop at 0 and at the cap; left and right switch page, wrapping around,
      and go back to the top; `q` ends the loop; any other key (or none)
      changes nothing. Python's `%` takes the sign of the divisor, which for
      the positive page count agrees with Dafny's. */
  function HandleKey(v: View, key: int): (r: Outcome)
    ensures r.Quit? <==> key == KeyQuit
    ensures Valid(v) && r.Continue? ==> Valid(r.view)
    ensures key == KeyRight || key == KeyLeft ==> r.Continue? && r.view.offset == 0 && 0 <= r.view.page < PageCount
    ensures Valid(v) && (key == KeyRight || key == KeyLeft) ==> r.view.page != v.page
    ensures key == KeyDown && v.page == 0 && v.offset < OffsetCeiling ==> r == Continue(v.(offset := v.offset + 1))
    ensures key == KeyUp && v.page == 0 && v.offset > 0 ==> r == Continue(v.(offset := v.offset - 1))
    ensures (key == KeyUp || key == KeyDown) && v.page != 0 ==> r == Continue(v)
    ensures key !in {KeyDown, KeyUp, KeyLeft, KeyRight, KeyQuit} ==> r == Continue(v)
    ensures (key == KeyDown && v.offset >= OffsetCeiling) || (key == KeyUp && v.offset <= 0) ==> r == Continue(v)
  {
    var scrolled :=
      if v.page == 0 && key == KeyDown && v.offset < OffsetCeiling then v.(offset := v.offset + 1)
      else if v.page == 0 && key == KeyUp && v.offset > 0 then v.(offset := v.offset - 1)
      else v;
    if key == KeyRight then Continue(View((scrolled.page + 1) % PageCount, 0))
    else if key == KeyLeft then Continue(View((scrolled.page - 1) % PageCount, 0))
    else if key == KeyQuit then Quit
    else Continue(scrolled)
  }

  /** The keys of several ticks in a row, stopping at `q`: the loop ends
      exactly when a `q` is among them. */
  function Run(v: View, keys: seq<int>): (r: Outcome)
    ensures r.Quit? <==> KeyQuit in keys
    decreases |keys|
  {
    if |keys| == 0 then Continue(v)
    else
      assert KeyQuit in keys <==> keys[0] == KeyQuit || KeyQuit in keys[1..];
      match HandleKey(v, keys[0])
      case Quit => Quit
      case Continue(next) => Run(next, keys[1..])
  }

  /** No sequence of keys leads out of the valid states. */
  lemma {:induction false} RunStaysValid(v: View, keys: seq<int>)
    requires Valid(v)
    ensures Run(v, keys).Continue? ==> Valid(Run(v, keys).view)
    decreases |keys|
  {
    if |keys| > 0 && HandleKey(v, keys[0]).Continue? {
      RunStaysValid(HandleKey(v, keys[0]).view, keys[1..]);
    }
  }

  /** Pressing down `n` times from the top of page 0 scrolls to `min(n, 1000)`. */
  lemma {:induction false} ScrollDownStopsAtCap(n: nat, start: nat)
    requires start <= OffsetCeiling
    ensures Run(View(0, start), seq(n, _ => KeyDown)) == Continue(View(0, Min(start + n, OffsetCeiling)))
    decreases n
  {
    if n > 0 {
      var next := if start < OffsetCeiling then start + 1 else start;
      assert seq(n, _ => KeyDown)[1..] == seq(n - 1, _ => KeyDown);
      ScrollDownStopsAtCap(n - 1, next);
    }
  }

  /** Right then left comes back to the same page, scrolled to the top. */
  lemma RightThenLeft(v: View)
    requires Valid(v)
    ensures Run(v, [KeyRight, KeyLeft]) == Continue(View(v.page, 0))
  {
    var right := HandleKey(v, KeyRight).view;
    var left := HandleKey(right, KeyLeft).view;
    assert [KeyRight, KeyLeft][1..] == [KeyLeft];
    assert Run(v, [KeyRight, KeyLeft]) == Run(right, [KeyLeft]);
    assert Run(right, [KeyLeft]) == Run(left, []);
  }

  /** Right on the last page wraps to the first, scrolled to the top. */
  lemma RightWrapsAround(offset: int)
    ensures HandleKey(View(PageCount - 1, offset), KeyRight) == Continue(View(0, 0))
  {
  }

  /** What the loop keeps from one tick to the next. */
  datatype Loop = Loop(view: View, baseline: Option<Baseline>, history: seq<real>)

  /** The state `draw` sets up before its loop: the process page at the
      top, no CPU reading yet and an empty history. */
  const Start := Loop(View(0, 0), None, [])

  /** The first tick has no earlier reading to compare with, so the first
      bar of the graph is always 0. */
  lemma FirstSampleIsZero(inputs: Inputs)
    requires !TooSmall(inputs.height, inputs.width)
    requires Tick(Start, inputs).Ok? && Tick(Start, inputs).value.next.Running?
    ensures Valid(Start.view)
    ensures Tick(Start, inputs).value.next.loop.history == [0.0]
  {
    assert Tick(Start, inputs) == Advance(Start, inputs, Draw(Start, inputs).value);
  }

  /** What one tick reads from the outside: the terminal size, the lines of
      `/proc/meminfo`, the machine facts and `/proc` listing the process page
      reads, the first line of `/proc/stat`, and the keys waiting in the
      input queue. */
  datatype Inputs = Inputs(
    height: nat,
    width: nat,
    meminfo: seq<Fields>,
    host: Host,
    entries: seq<DirEntry>,
    stat: Fields,
    pending: seq<int>)

  datatype Next = Running(loop: Loop) | Stopped

  datatype TickResult = TickResult(frame: Frame, next: Next, pending: seq<int>)

  /** `getch` in no-delay mode: the first waiting key, or -1. */
  function NextKey(pending: seq<int>): (key: int)
    ensures |pending| == 0 ==> key == KeyNone
    ensures 0 < |pending| ==> key == pending[0] && key in pending
  {
    if |pending| == 0 then KeyNone else pending[0]
  }

  /** The frame a tick draws: the current page, from what it reads now. The
      process page reads the process list, and the summary page the memory
      figures; each fails exactly when its read does. */
  function Draw(s: Loop, inputs: Inputs): (r: Result<Frame>)
    requires Valid(s.view)
    ensures TooSmall(inputs.height, inputs.width) ==> r == Ok(Notice(TooSmallNotice))
    ensures !TooSmall(inputs.height, inputs.width) && s.view.page == 0 ==>
      (r.Ok? <==> ReadProcesses(inputs.meminfo, inputs.host, inputs.entries).Ok?)
    ensures !TooSmall(inputs.height, inputs.width) && s.view.page == 0 && r.Ok? ==>
      r.value == ProcessPage(ProcessRows(ReadProcesses(inputs.meminfo, inputs.host, inputs.entries).value,
                                         s.view.offset, inputs.height, inputs.width))
    ensures !TooSmall(inputs.height, inputs.width) && s.view.page == 1 ==>
      (r.Ok? <==> MemoryInfo(inputs.meminfo).Ok?)
    ensures !TooSmall(inputs.height, inputs.width) && s.view.page == 1 && r.Ok? ==>
      r.value == SummaryPage(MemoryInfo(inputs.meminfo).value, Bars(s.history, inputs.height, inputs.width))
  {
    RenderFrame(s.view.page, s.view.offset, inputs.height, inputs.width,
                ReadProcesses(inputs.meminfo, inputs.host, inputs.entries),
                MemoryInfo(inputs.meminfo), s.history)
  }

  /** What follows the drawing on a terminal of workable size: the CPU is
      sampled and recorded, then one key is handled. */
  function Advance(s: Loop, inputs: Inputs, frame: Frame): (r: Result<TickResult>)
    requires Valid(s.view)
    ensures r.Ok? <==> CpuUsage(inputs.stat, s.baseline).Ok?
    ensures r.Ok? ==> r.value.frame == frame
    ensures r.Ok? ==> r.value.pending == (if |inputs.pending| == 0 then [] else inputs.pending[1..])
    ensures r.Ok? ==> (r.value.next.Stopped? <==> NextKey(inputs.pending) == KeyQuit)
    ensures r.Ok? && r.value.next.Running? ==>
      r.value.next.loop == Loop(HandleKey(s.view, NextKey(inputs.pending)).view,
                                Some(CpuUsage(inputs.stat, s.baseline).value.1),
                                Record(s.history, CpuUsage(inputs.stat, s.baseline).value.0, inputs.width))
  {
    var reading :- CpuUsage(inputs.stat, s.baseline);
    var history := Record(s.history, reading.0, inputs.width);
    var rest := if |inputs.pending| == 0 then [] else inputs.pending[1..];
    match HandleKey(s.view, NextKey(inputs.pending))
    case Quit => Ok(TickResult(frame, Stopped, rest))
    case Continue(v) => Ok(TickResult(frame, Running(Loop(v, Some(reading.1), history)), rest))
  }

  /** One pass of the `while True` loop: render, then sample and record the
      CPU usage, then handle one key. An exception while reading what the
      page or the CPU sample needs ends the program. */
  function Tick(s: Loop, inputs: Inputs): (r: Result<TickResult>)
    requires Valid(s.view)
    ensures TooSmall(inputs.height, inputs.width) ==>
      r == Ok(TickResult(Notice(TooSmallNotice), Running(s), inputs.pending))
    ensures r.Ok? && r.value.next.Running? ==> Valid(r.value.next.loop.view)
    ensures r.Ok? && !TooSmall(inputs.height, inputs.width) ==>
      r.value.pending == (if |inputs.pending| == 0 then [] else inputs.pending[1..])
    ensures r.Ok? && !TooSmall(inputs.height, inputs.width) ==> CpuUsage(inputs.stat, s.baseline).Ok?
    ensures r.Ok? ==> (r.value.next.Stopped? <==> !TooSmall(inputs.height, inputs.width) && NextKey(inputs.pending) == KeyQuit)
    ensures !TooSmall(inputs.height, inputs.width) ==>
      (r.Ok? <==> Draw(s, inputs).Ok? && CpuUsage(inputs.stat, s.baseline).Ok?)
    ensures r.Ok? ==> Draw(s, inputs) == Ok(r.value.frame)
    ensures r.Ok? && r.value.next.Running? && !TooSmall(inputs.height, inputs.width) ==>
      r.value.next.loop.view == HandleKey(s.view, NextKey(inputs.pending)).view
    ensures r.Ok? && r.value.next.Running? && !TooSmall(inputs.height, inputs.width) ==>
      r.value.next.loop.history == Record(s.history, CpuUsage(inputs.stat, s.baseline).value.0, inputs.width)
  {
    var frame :- Draw(s, inputs);
    if TooSmall(inputs.height, inputs.width) then Ok(TickResult(frame, Running(s), inputs.pending))
    else Advance(s, inputs, frame)
  }

  /** A tick that goes on keeps at most `width` samples, the newest being
      this tick's CPU usage and the others the newest of the old history,
      and remembers this tick's counters. */
  lemma TickRecordsSample(s: Loop, inputs: Inputs)
    requires Valid(s.view) && !TooSmall(inputs.height, inputs.width)
    requires Tick(s, inputs).Ok? && Tick(s, inputs).value.next.Running?
    ensures var h := Tick(s, inputs).value.next.loop.history;
      0 < |h| <= inputs.width && h[|h| - 1] == CpuUsage(inputs.stat, s.baseline).value.0
    ensures Tick(s, inputs).value.next.loop.history ==
      Record(s.history, CpuUsage(inputs.stat, s.baseline).value.0, inputs.width)
    ensures Tick(s, inputs).value.next.loop.baseline == Some(CpuUsage(inputs.stat, s.baseline).value.1)
  {
    assert Tick(s, inputs) == Advance(s, inputs, Draw(s, inputs).value);
  }

  /** The frame is drawn before the CPU is sampled: what `/proc/stat` says
      during a tick does not change that tick's frame. */
  lemma FrameIgnoresThisTicksSample(s: Loop, inputs: Inputs, stat: Fields)
    requires Valid(s.view)
    requires Tick(s, inputs).Ok? && Tick(s, inputs.(stat := stat)).Ok?
    ensures Tick(s, inputs).value.frame == Tick(s, inputs.(stat := stat)).value.frame
  {
  }

  /** The sample recorded in one tick is the rightmost bar of the next tick's
      graph: the graph shows the CPU usage one tick late. */
  lemma SampleShowsNextTick(s: Loop, first: Inputs, second: Inputs)
    requires Valid(s.view) && !TooSmall(first.height, first.width) && !TooSmall(second.height, second.width)
    requires Tick(s, first).Ok? && Tick(s, first).value.next.Running?
    requires Tick(s, first).value.next.loop.view.page == 1
    requires Tick(Tick(s, first).value.next.loop, second).Ok?
    ensures var frame := Tick(Tick(s, first).value.next.loop, second).value.frame;
      frame.SummaryPage? && 0 < |frame.bars| && frame.bars[0].sample == CpuUsage(first.stat, s.baseline).value.0
  {
    var next := Tick(s, first).value.next.loop;
    TickRecordsSample(s, first);
    BarsRunRightToLeft(next.history, second.height, second.width);
  }
}

=== FILE: history.dfy ===
/** The rolling CPU history (src/ptop/main.py:188-191): each tick appends
    the new utilisation sample, then keeps only the last `width` samples,
    `width` being the terminal width of that tick. Oldest sample first. */
module History {
  import opened Text

  /** Python's `s[-k:]` for `k >= 0`: the last `k` elements, except that
      `-0` is `0`, so `s[-0:]` is all of `s`. */
  function LastSlice(s: seq<real>, k: nat): (r: seq<real>)
    ensures k == 0 ==> r == s
    ensures k > 0 ==> |r| == Min(k, |s|) && r == s[|s| - |r|..]
  {
    if k == 0 || |s| <= k then s else s[|s| - k..]
  }

  /** `cpu_history.append(sample)` followed by the cut to `width` entries. */
  function Record(history: seq<real>, sample: real, width: nat): (r: seq<real>)
    ensures width >= 1 ==> |r| == Min(|history| + 1, width)
    ensures 0 < |r| <= |history| + 1 && r[|r| - 1] == sample
    ensures r[..|r| - 1] == history[|history| - (|r| - 1)..]
  {
    var appended := history + [sample];
    var r := if |appended| > width then LastSlice(appended, width) else appended;
    assert r[..|r| - 1] == history[|history| - (|r| - 1)..] by {
      assert r == appended[|appended| - |r|..];
    }
    r
  }

  /** The last `w` elements of `s`, or all of `s` when it is shorter. */
  function Newest(s: seq<real>, w: nat): (r: seq<real>)
    ensures |r| == Min(|s|, w)
  {
    s[|s| - Min(|s|, w)..]
  }

  /** Several ticks in a row at the same width. */
  function RecordAll(history: seq<real>, samples: seq<real>, width: nat): seq<real>
    decreases |samples|
  {
    if |samples| == 0 then history
    else RecordAll(Record(history, samples[0], width), samples[1..], width)
  }

  /** Cutting twice to `w` is cutting once. */
  lemma NewestOfNewest(a: seq<real>, b: seq<real>, w: nat)
    ensures Newest(Newest(a, w) + b, w) == Newest(a + b, w)
  {
    var na := Newest(a, w);
    var k := Min(|a + b|, w);
    assert |na + b| >= k;
    assert na + b == (a + b)[|a| - |na|..];
  }

  /** One tick on a history no longer than the width keeps the newest
      `width` samples. */
  lemma RecordIsNewest(history: seq<real>, sample: real, width: nat)
    requires width >= 1 && |history| <= width
    ensures Record(history, sample, width) == Newest(history + [sample], width)
    ensures |Record(history, sample, width)| <= width
  {
    var r := Record(history, sample, width);
    var a := history + [sample];
    assert r[..|r| - 1] == a[|a| - |r|..|a| - 1];
    assert r == a[|a| - |r|..];
  }

  /** Starting from a history no longer than the width, the buffer after any
      run of ticks holds exactly the newest `width` of all samples seen, in
      order: a FIFO that evicts from the front. */
  lemma {:induction false} RecordAllKeepsNewest(history: seq<real>, samples: seq<real>, width: nat)
    requires width >= 1 && |history| <= width
    ensures RecordAll(history, samples, width) == Newest(history + samples, width)
    decreases |samples|
  {
    if |samples| == 0 {
      assert history + samples == history;
    } else {
      var first := history + [samples[0]];
      var rest := samples[1..];
      RecordIsNewest(history, samples[0], width);
      calc {
        RecordAll(history, samples, width);
        RecordAll(Record(history, samples[0], width), rest, width);
        RecordAll(Newest(first, width), rest, width);
        { RecordAllKeepsNewest(Newest(first, width), rest, width); }
        Newest(Newest(first, width) + rest, width);
        { NewestOfNewest(first, rest, width); }
        Newest(first + rest, width);
        { assert first + rest == history + samples; }
        Newest(history + samples, width);
      }
    }
  }

  /** After `n` ticks from an empty history the buffer holds `min(n, width)`
      samples, the newest last. */
  lemma HistoryFromEmpty(samples: seq<real>, width: nat)
    requires width >= 1 && 0 < |samples|
    ensures |RecordAll([], samples, width)| == Min(|samples|, width)
    ensures RecordAll([], samples, width)[|RecordAll([], samples, width)| - 1] == samples[|samples| - 1]
  {
    RecordAllKeepsNewest([], samples, width);
    assert [] + samples == samples;
  }
}

=== FILE: memory.dfy ===
/** Memory accounting over the lines of `/proc/meminfo`
    (`get_total_memory` and `get_memory_info`, src/ptop/main.py:12-29).

    The two readers differ: `get_total_memory` stops at the FIRST line that
    starts with `MemTotal:`, while `get_memory_info` stores every line whose
    first field is exactly one of four keys in a dictionary, so the LAST such
    line of each key wins. Missing keys fall back to 1 for the total and to 0
    for the three parts of "free". */
module Memory {
  import opened Wrappers
  import opened Text

  /** `get_total_memory`: the value on the first `MemTotal:` line, or the
      sentinel 1 when there is none. */
  function TotalMemory(lines: seq<Fields>): (r: Result<int>)
    ensures NoMatch(lines, "MemTotal:") ==> r == Ok(1)
    ensures forall i :: FirstMatch(lines, "MemTotal:", i) ==> r == IntField(lines[i], 1)
  {
    match FirstWithPrefix(lines, "MemTotal:")
    case None => Ok(1)
    case Some(i) =>
      assert forall j :: FirstMatch(lines, "MemTotal:", j) ==> j == i by {
        forall j | FirstMatch(lines, "MemTotal:", j) ensures j == i {
          FirstMatchUnique(lines, "MemTotal:", i, j);
        }
      }
      IntField(lines[i], 1)
  }

  /** The first fields `get_memory_info` keeps. */
  const Tracked: set<string> := {"MemTotal:", "MemFree:", "Buffers:", "Cached:"}

  datatype MemInfo = MemInfo(used: int, free: int, total: int)

  /** A line the loop of `get_memory_info` gets past without raising: it has a
      first field, and a tracked line has an integer second field. */
  predicate LineReadable(line: Fields) {
    0 < |line| && (line[0] in Tracked ==> 1 < |line| && ParseInt(line[1]).Some?)
  }

  predicate AllReadable(lines: seq<Fields>) {
    forall k :: 0 <= k < |lines| ==> LineReadable(lines[k])
  }

  /** The value on the last line keyed `key`, or None when no line is. */
  function LastValue(lines: seq<Fields>, key: string): Option<int>
    requires AllReadable(lines) && key in Tracked
  {
    if |lines| == 0 then None
    else
      match LastValue(lines[1..], key)
      case Some(v) => Some(v)
      case None => if lines[0][0] == key then ParseInt(lines[0][1]) else None
  }

  /** The value on the last line keyed `key`, or `default`. */
  function LastOr(lines: seq<Fields>, key: string, default: int): int
    requires AllReadable(lines) && key in Tracked
  {
    ValueOr(LastValue(lines, key), default)
  }

  function Lookup(m: map<string, int>, key: string): Option<int> {
    if key in m then Some(m[key]) else None
  }

  function ValueOr(o: Option<int>, default: int): int {
    match o
    case Some(v) => v
    case None => default
  }

  /** The loop of `get_memory_info`: `mem[parts[0]] = int(parts[1])` for every
      tracked line, starting from the dictionary `mem`; an empty line raises
      `IndexError` at `parts[0]`. */
  function Scan(lines: seq<Fields>, mem: map<string, int>): (r: Result<map<string, int>>)
    ensures r.Ok? <==> AllReadable(lines)
    ensures r.Ok? ==> r.value.Keys <= mem.Keys + Tracked
    ensures r.Ok? ==> forall key :: key in Tracked ==>
      Lookup(r.value, key) == (match LastValue(lines, key) case Some(v) => Some(v) case None => Lookup(mem, key))
  {
    if |lines| == 0 then Ok(mem)
    else if |lines[0]| == 0 then Err(IndexError)
    else if lines[0][0] in Tracked then
      var v :- IntField(lines[0], 1);
      Scan(lines[1..], mem[lines[0][0] := v])
    else Scan(lines[1..], mem)
  }

  /** `get_memory_info`: `(used, free, total)` where free counts MemFree,
      Buffers and Cached, and used is what is left of the total. */
  function MemoryInfo(lines: seq<Fields>): (r: Result<MemInfo>)
    ensures r.Ok? <==> AllReadable(lines)
    ensures r.Ok? ==> r.value.used + r.value.free == r.value.total
    ensures r.Ok? ==> r.value.total == LastOr(lines, "MemTotal:", 1)
    ensures r.Ok? ==> r.value.free == LastOr(lines, "MemFree:", 0) + LastOr(lines, "Buffers:", 0) + LastOr(lines, "Cached:", 0)
  {
    var mem :- Scan(lines, map[]);
    var total := ValueOr(Lookup(mem, "MemTotal:"), 1);
    var free := ValueOr(Lookup(mem, "MemFree:"), 0) + ValueOr(Lookup(mem, "Buffers:"), 0)
      + ValueOr(Lookup(mem, "Cached:"), 0);
    Ok(MemInfo(total - free, free, total))
  }

  /** The lines of a meminfo that lists each tracked field once, in the
      kernel's order. */
  function FourLines(total: int, free: int, buffers: int, cached: int): seq<Fields> {
    [["MemTotal:", ShowInt(total), "kB"]] + ([["MemFree:", ShowInt(free), "kB"]]
      + ([["Buffers:", ShowInt(buffers), "kB"]] + [["Cached:", ShowInt(cached), "kB"]]))
  }

  /** Each tracked field of `FourLines` is read back as the value written. */
  lemma FourLinesValues(total: int, free: int, buffers: int, cached: int)
    ensures AllReadable(FourLines(total, free, buffers, cached))
    ensures LastValue(FourLines(total, free, buffers, cached), "MemTotal:") == Some(total)
    ensures LastValue(FourLines(total, free, buffers, cached), "MemFree:") == Some(free)
    ensures LastValue(FourLines(total, free, buffers, cached), "Buffers:") == Some(buffers)
    ensures LastValue(FourLines(total, free, buffers, cached), "Cached:") == Some(cached)
  {
    ParseShowRoundTrip(total);
    ParseShowRoundTrip(free);
    ParseShowRoundTrip(buffers);
    ParseShowRoundTrip(cached);
    var t3 := [["Cached:", ShowInt(cached), "kB"]];
    var t2 := [["Buffers:", ShowInt(buffers), "kB"]] + t3;
    var t1 := [["MemFree:", ShowInt(free), "kB"]] + t2;
    var lines := FourLines(total, free, buffers, cached);
    assert lines[1..] == t1 && t1[1..] == t2 && t2[1..] == t3 && t3[1..] == [];
    // The four labels differ: by their first letter, or by the fourth.
    assert "Cached:"[0] != "Buffers:"[0] && "Cached:"[0] != "MemFree:"[0] && "Cached:"[0] != "MemTotal:"[0];
    assert "Buffers:"[0] != "MemFree:"[0] && "Buffers:"[0] != "MemTotal:"[0];
    assert "MemFree:"[3] != "MemTotal:"[3];
    assert AllReadable(lines);
    assert LastValue(t3, "Cached:") == Some(cached);
    assert LastValue(t3, "Buffers:") == None;
    assert LastValue(t2, "Buffers:") == Some(buffers);
    assert LastValue(t3, "MemFree:") == None;
    assert LastValue(t2, "MemFree:") == None;
    assert LastValue(t1, "MemFree:") == Some(free);
    assert LastValue(t3, "MemTotal:") == None;
    assert LastValue(t2, "MemTotal:") == None;
    assert LastValue(t1, "MemTotal:") == None;
    assert LastValue(t2, "Cached:") == Some(cached);
    assert LastValue(t1, "Cached:") == Some(cached);
    assert LastValue(t1, "Buffers:") == Some(buffers);
  }

  /** A meminfo that lists MemTotal, MemFree, Buffers and Cached once each
      reports those values: free is the sum of the last three, used the rest
      of the total. */
  lemma OneLineEach(total: int, free: int, buffers: int, cached: int)
    ensures MemoryInfo([
      ["MemTotal:", ShowInt(total), "kB"],
      ["MemFree:", ShowInt(free), "kB"],
      ["Buffers:", ShowInt(buffers), "kB"],
      ["Cached:", ShowInt(cached), "kB"]]) == Ok(MemInfo(total - (free + buffers + cached), free + buffers + cached, total))
  {
    FourLinesValues(total, free, buffers, cached);
    assert FourLines(total, free, buffers, cached) == [
      ["MemTotal:", ShowInt(total), "kB"],
      ["MemFree:", ShowInt(free), "kB"],
      ["Buffers:", ShowInt(buffers), "kB"],
      ["Cached:", ShowInt(cached), "kB"]];
  }

  /** With MemTotal listed twice the two readers disagree: the total used for
      MEM% is the first value, the one shown on the summary page the last. */
  lemma FirstAndLastTotalDiffer()
    ensures TotalMemory([["MemTotal:", ShowInt(5)], ["MemTotal:", ShowInt(7)]]) == Ok(5)
    ensures MemoryInfo([["MemTotal:", ShowInt(5)], ["MemTotal:", ShowInt(7)]]).Ok?
    ensures MemoryInfo([["MemTotal:", ShowInt(5)], ["MemTotal:", ShowInt(7)]]).value.total == 7
  {
    ParseShowRoundTrip(5);
    ParseShowRoundTrip(7);
    var lines := [["MemTotal:", ShowInt(5)], ["MemTotal:", ShowInt(7)]];
    assert LineStartsWith(lines[0], "MemTotal:");
    assert AllReadable(lines);
  }
}

=== FILE: processes.dfy ===
/** One process's row of the snapshot: the body of the `try` in
    `read_processes` (src/ptop/main.py:42-74).

    Every exception the body can raise is an `Err` here; the caller skips
    such a process, as the source's `except Exception: continue` does. The
    files under `/proc/<pid>/` arrive already read: the `stat` record split on
    whitespace, the raw `cmdline`, and the lines of `status`. A file that
    vanished before it could be opened is `None`. */
module Processes {
  import opened Wrappers
  import opened Text

  /** What is read under `/proc/<pid>/`. */
  datatype ProcFiles = ProcFiles(stat: Option<Fields>, cmdline: Option<string>, status: Option<seq<Fields>>)

  /** Machine-wide facts the sampler reads once per snapshot: uptime in
      seconds, clock ticks per second, and the user database as a map from
      numeric user id to name. */
  datatype Host = Host(uptime: real, hz: int, users: map<int, string>)

  /** One entry of the snapshot, as the source's dictionary holds it. */
  datatype ProcRecord = ProcRecord(pid: int, user: string, cpu: real, mem: real, cmd: string)

  /** Positions in the `stat` record of utime, stime and starttime (fields 14,
      15 and 22 of proc(5), counted from 1). */
  const UtimeField := 13
  const StimeField := 14
  const StartField := 21

  /** The characters `strip("()")` removes around the short command name. */
  const Parens: set<char> := {'(', ')'}

  /** `cmdline.replace('\x00', ' ')`: the NUL separators become blanks. */
  function NulToSpace(s: string): (r: string)
    ensures |r| == |s|
    ensures forall i :: 0 <= i < |s| ==> r[i] == (if s[i] == '\0' then ' ' else s[i])
  {
    if |s| == 0 then [] else [if s[0] == '\0' then ' ' else s[0]] + NulToSpace(s[1..])
  }

  /** A command line with nothing but NULs and whitespace in it. */
  predicate Blank(cmdline: string) {
    forall i :: 0 <= i < |cmdline| ==> cmdline[i] == '\0' || cmdline[i] in Whitespace
  }

  lemma BlankStripsToNothing(cmdline: string)
    ensures Strip(NulToSpace(cmdline), Whitespace) == [] <==> Blank(cmdline)
  {
    var spaced := NulToSpace(cmdline);
    assert ' ' in Whitespace;
    forall i | 0 <= i < |cmdline|
      ensures spaced[i] in Whitespace <==> cmdline[i] == '\0' || cmdline[i] in Whitespace
    {
      if cmdline[i] == '\0' {
        assert spaced[i] == ' ';
      } else {
        assert spaced[i] == cmdline[i];
      }
    }
  }

  /** The command shown for a process: its command line with the NULs turned
      into blanks and the ends stripped, or, when that leaves nothing (kernel
      threads, zombies), the short name of `stat[1]` without its parentheses. */
  function Command(cmdline: string, stat: Fields): (r: Result<string>)
    ensures r.Err? <==> Blank(cmdline) && |stat| < 2
    ensures r.Err? ==> r.fault == IndexError
    ensures !Blank(cmdline) ==> r == Ok(Strip(NulToSpace(cmdline), Whitespace))
    ensures !Blank(cmdline) ==> r.Ok? && r.value != [] && |r.value| <= |cmdline|
    ensures !Blank(cmdline) ==> r.value[0] !in Whitespace && r.value[|r.value| - 1] !in Whitespace
    ensures Blank(cmdline) && r.Ok? ==> r.value == Strip(stat[1], Parens)
  {
    var line := Strip(NulToSpace(cmdline), Whitespace);
    BlankStripsToNothing(cmdline);
    if !Blank(cmdline) then
      assert |line| <= |NulToSpace(cmdline)|;
      Ok(line)
    else
      assert line == [];
      var name :- Field(stat, 1);
      Ok(Strip(name, Parens))
  }

  /** The owner's name: the first `Uid:` line's real uid looked up in the user
      database. No `Uid:` line ends `next(...)` with `StopIteration`; an
      unknown uid makes `pwd.getpwuid` raise `KeyError`. */
  function Owner(status: seq<Fields>, users: map<int, string>): (r: Result<string>)
    ensures NoMatch(status, "Uid:") ==> r == Err(StopIteration)
    ensures forall i :: FirstMatch(status, "Uid:", i) ==>
      (r.Ok? <==> IntField(status[i], 1).Ok? && IntField(status[i], 1).value in users)
    ensures forall i :: FirstMatch(status, "Uid:", i) && r.Ok? ==> r.value == users[IntField(status[i], 1).value]
    ensures forall i :: FirstMatch(status, "Uid:", i) && IntField(status[i], 1).Err? ==> r == Err(IntField(status[i], 1).fault)
    ensures forall i :: FirstMatch(status, "Uid:", i) && IntField(status[i], 1).Ok? && IntField(status[i], 1).value !in users ==>
      r == Err(KeyError)
  {
    match FirstWithPrefix(status, "Uid:")
    case None => Err(StopIteration)
    case Some(i) =>
      assert forall j :: FirstMatch(status, "Uid:", j) ==> j == i by {
        forall j | FirstMatch(status, "Uid:", j) ensures j == i {
          FirstMatchUnique(status, "Uid:", i, j);
        }
      }
      var uid :- IntField(status[i], 1);
      if uid in users then Ok(users[uid]) else Err(KeyError)
  }

  /** Resident memory in kB: the value on the first `VmRSS:` line, 0 when the
      process has none (kernel threads). */
  function ResidentKb(status: seq<Fields>): (r: Result<int>)
    ensures NoMatch(status, "VmRSS:") ==> r == Ok(0)
    ensures forall i :: FirstMatch(status, "VmRSS:", i) ==> r == IntField(status[i], 1)
  {
    match FirstWithPrefix(status, "VmRSS:")
    case None => Ok(0)
    case Some(i) =>
      assert forall j :: FirstMatch(status, "VmRSS:", j) ==> j == i by {
        forall j | FirstMatch(status, "VmRSS:", j) ensures j == i {
          FirstMatchUnique(status, "VmRSS:", i, j);
        }
      }
      IntField(status[i], 1)
  }

  /** Seconds the process has existed: uptime minus its start in seconds. */
  function Lifetime(start: int, uptime: real, hz: int): real
    requires hz != 0
  {
    uptime - start as real / hz as real
  }

  /** CPU% as the average over the process's whole life: CPU seconds used
      per second lived, in percent; exactly 0 when the lifetime is not
      positive. A zero tick rate raises `ZeroDivisionError`. */
  function CpuPercent(utime: int, stime: int, start: int, uptime: real, hz: int): (r: Result<real>)
    ensures r.Err? <==> hz == 0
    ensures r.Err? ==> r.fault == ZeroDivisionError
    ensures r.Ok? && Lifetime(start, uptime, hz) <= 0.0 ==> r.value == 0.0
    ensures r.Ok? && Lifetime(start, uptime, hz) > 0.0 ==>
      r.value * Lifetime(start, uptime, hz) * hz as real == 100.0 * (utime + stime) as real
    ensures r.Ok? && hz > 0 && utime + stime >= 0 ==> r.value >= 0.0
  {
    if hz == 0 then Err(ZeroDivisionError)
    else
      var seconds := uptime - start as real / hz as real;
      if seconds > 0.0 then
        var cpuSeconds := (utime + stime) as real / hz as real;
        Ok(100.0 * (cpuSeconds / seconds))
      else Ok(0.0)
  }

  /** MEM% as the share of total memory resident, in percent. A total of 0
      (a `MemTotal:` line reading 0) raises `ZeroDivisionError`. */
  function MemPercent(memKb: int, totalKb: int): (r: Result<real>)
    ensures r.Err? <==> totalKb == 0
    ensures r.Err? ==> r.fault == ZeroDivisionError
    ensures r.Ok? ==> r.value * totalKb as real == 100.0 * memKb as real
    ensures 0 <= memKb <= totalKb && r.Ok? ==> 0.0 <= r.value <= 100.0
    ensures memKb == 0 && r.Ok? ==> r.value == 0.0
  {
    if totalKb == 0 then Err(ZeroDivisionError)
    else Ok((memKb as real / totalKb as real) * 100.0)
  }

  /** Every step of the `try` body goes through: the three files are there,
      the command, owner, tick counters and resident size read, and neither
      division is by zero. */
  predicate Readable(files: ProcFiles, host: Host, totalKb: int) {
    && files.stat.Some? && files.cmdline.Some? && files.status.Some?
    && Command(files.cmdline.value, files.stat.value).Ok?
    && Owner(files.status.value, host.users).Ok?
    && IntField(files.stat.value, UtimeField).Ok?
    && IntField(files.stat.value, StimeField).Ok?
    && IntField(files.stat.value, StartField).Ok?
    && host.hz != 0
    && ResidentKb(files.status.value).Ok?
    && totalKb != 0
  }

  /** The body of the `try` for the process `pid`. */
  function ReadRecord(pid: int, files: ProcFiles, host: Host, totalKb: int): (r: Result<ProcRecord>)
    ensures r.Ok? ==> r.value.pid == pid
    ensures r.Ok? ==> files.stat.Some? && files.cmdline.Some? && files.status.Some?
    ensures r.Ok? ==> StartField < |files.stat.value| && host.hz != 0 && totalKb != 0
    ensures r.Ok? ==> Command(files.cmdline.value, files.stat.value) == Ok(r.value.cmd)
    ensures r.Ok? ==> Owner(files.status.value, host.users) == Ok(r.value.user)
    ensures r.Ok? ==> ResidentKb(files.status.value).Ok?
    ensures r.Ok? ==> MemPercent(ResidentKb(files.status.value).value, totalKb) == Ok(r.value.mem)
    ensures r.Ok? ==> IntField(files.stat.value, UtimeField).Ok?
    ensures r.Ok? ==> IntField(files.stat.value, StimeField).Ok?
    ensures r.Ok? ==> IntField(files.stat.value, StartField).Ok?
    ensures r.Ok? ==> CpuPercent(IntField(files.stat.value, UtimeField).value, IntField(files.stat.value, StimeField).value,
      IntField(files.stat.value, StartField).value, host.uptime, host.hz) == Ok(r.value.cpu)
  {
    var stat :- FromFile(files.stat);
    var cmdline :- FromFile(files.cmdline);
    var cmd :- Command(cmdline, stat);
    var status :- FromFile(files.status);
    var user :- Owner(status, host.users);
    var utime :- IntField(stat, UtimeField);
    var stime :- IntField(stat, StimeField);
    var start :- IntField(stat, StartField);
    var cpu :- CpuPercent(utime, stime, start, host.uptime, host.hz);
    var memKb :- ResidentKb(status);
    var mem :- MemPercent(memKb, totalKb);
    Ok(ProcRecord(pid, user, cpu, mem, cmd))
  }

  /** A process is listed exactly when every step of its reading goes
      through; any one step that raises leaves it out. */
  lemma ReadRecordSucceeds(pid: int, files: ProcFiles, host: Host, totalKb: int)
    ensures ReadRecord(pid, files, host, totalKb).Ok? <==> Readable(files, host, totalKb)
  {
  }

  /** A process whose lifetime is not positive shows exactly 0 CPU%. */
  lemma YoungProcessShowsNoCpu(pid: int, files: ProcFiles, host: Host, totalKb: int)
    requires ReadRecord(pid, files, host, totalKb).Ok?
    requires Lifetime(ParseInt(files.stat.value[StartField]).value, host.uptime, host.hz) <= 0.0
    ensures ReadRecord(pid, files, host, totalKb).value.cpu == 0.0
  {
  }

  /** CPU% is never negative when the tick rate is positive and the tick
      counters are not negative. */
  lemma CpuNotNegative(pid: int, files: ProcFiles, host: Host, totalKb: int)
    requires ReadRecord(pid, files, host, totalKb).Ok? && host.hz > 0
    requires ParseInt(files.stat.value[UtimeField]).value >= 0 && ParseInt(files.stat.value[StimeField]).value >= 0
    ensures ReadRecord(pid, files, host, totalKb).value.cpu >= 0.0
  {
  }

  /** A process without a `VmRSS:` line shows 0 MEM%. */
  lemma NoResidentSetShowsNoMem(pid: int, files: ProcFiles, host: Host, totalKb: int)
    requires ReadRecord(pid, files, host, totalKb).Ok?
    requires NoMatch(files.status.value, "VmRSS:")
    ensures ReadRecord(pid, files, host, totalKb).value.mem == 0.0
  {
    var r := ReadRecord(pid, files, host, totalKb);
    assert ResidentKb(files.status.value) == Ok(0);
    assert MemPercent(0, totalKb) == Ok(r.value.mem);
  }

  /** A `stat` record too short to hold the start time makes the process
      fail, whatever else is read. */
  lemma ShortStatFails(pid: int, files: ProcFiles, host: Host, totalKb: int)
    requires files.stat.Some? && |files.stat.value| <= StartField
    ensures ReadRecord(pid, files, host, totalKb).Err?
  {
  }
}

=== FILE: ranking.dfy ===
/** The ranking of the snapshot: `sorted(processes, key=lambda p: p['cpu'],
    reverse=True)` (src/ptop/main.py:77).

    Python's sort is stable, also with `reverse=True`: records with equal CPU%
    keep the order in which they were read. The model sorts by insertion and
    proves the result sorted, a permutation, and stable; stability is stated
    as "for every CPU% value, the records carrying it appear in the same order
    as in the input", and `SortedAndStableIsUnique` shows this pins the
    result down completely. */
module Ranking {
  import opened Processes

  /** Non-increasing CPU% from the top of the list down. */
  predicate SortedByCpu(s: seq<ProcRecord>) {
    forall i, j :: 0 <= i < j < |s| ==> s[i].cpu >= s[j].cpu
  }

  /** The records of `s` whose CPU% is `v`, in their order in `s`. */
  function WithCpu(s: seq<ProcRecord>, v: real): seq<ProcRecord> {
    if |s| == 0 then [] else (if s[0].cpu == v then [s[0]] else []) + WithCpu(s[1..], v)
  }

  /** A record no lower than the head of a sorted list can go in front of it. */
  lemma SortedCons(h: ProcRecord, t: seq<ProcRecord>)
    requires SortedByCpu(t) && (|t| == 0 || h.cpu >= t[0].cpu)
    ensures SortedByCpu([h] + t)
  {
    var r := [h] + t;
    forall i, j | 0 <= i < j < |r| ensures r[i].cpu >= r[j].cpu {
      if i > 0 {
        assert r[i] == t[i - 1] && r[j] == t[j - 1];
      } else {
        assert r[j] == t[j - 1] && t[0].cpu >= t[j - 1].cpu;
      }
    }
  }

  lemma SortedTail(s: seq<ProcRecord>)
    requires SortedByCpu(s) && 0 < |s|
    ensures SortedByCpu(s[1..])
  {
    var tail := s[1..];
    forall i, j | 0 <= i < j < |tail| ensures tail[i].cpu >= tail[j].cpu {
      assert tail[i] == s[i + 1] && tail[j] == s[j + 1];
    }
  }

  /** Places `x` in front of the first record whose CPU% does not exceed its
      own, so that it goes before every record it ties with. */
  function Insert(x: ProcRecord, s: seq<ProcRecord>): (r: seq<ProcRecord>)
    requires SortedByCpu(s)
    ensures SortedByCpu(r)
    ensures |r| == |s| + 1
    ensures r[0] == x || (|s| > 0 && r[0] == s[0])
  {
    if |s| == 0 || x.cpu >= s[0].cpu then
      SortedCons(x, s);
      [x] + s
    else
      var tail := s[1..];
      SortedTail(s);
      var rest := Insert(x, tail);
      // The head of `rest` is `x` or `s[1]`, neither above `s[0]`.
      assert 0 < |tail| ==> tail[0] == s[1] && s[0].cpu >= s[1].cpu;
      SortedCons(s[0], rest);
      [s[0]] + rest
  }

  /** The snapshot's order: by CPU% from highest to lowest, ties in the order read. */
  function SortByCpu(s: seq<ProcRecord>): (r: seq<ProcRecord>)
    ensures SortedByCpu(r)
    ensures |r| == |s|
  {
    if |s| == 0 then [] else Insert(s[0], SortByCpu(s[1..]))
  }

  /** Inserting adds exactly the one record. */
  lemma {:induction false} InsertPermutes(x: ProcRecord, s: seq<ProcRecord>)
    requires SortedByCpu(s)
    ensures multiset(Insert(x, s)) == multiset(s) + multiset{x}
  {
    if 0 < |s| && x.cpu < s[0].cpu {
      var tail := s[1..];
      SortedTail(s);
      InsertPermutes(x, tail);
      assert Insert(x, s) == [s[0]] + Insert(x, tail);
      assert s == [s[0]] + tail;
    }
  }

  /** The ranking is a permutation of the records read. */
  lemma {:induction false} SortPermutes(s: seq<ProcRecord>)
    ensures multiset(SortByCpu(s)) == multiset(s)
  {
    if 0 < |s| {
      var t := SortByCpu(s[1..]);
      assert multiset(SortByCpu(s)) == multiset(t) + multiset{s[0]} by {
        assert SortByCpu(s) == Insert(s[0], t);
        InsertPermutes(s[0], t);
      }
      SortPermutes(s[1..]);
      assert multiset(s) == multiset(s[1..]) + multiset{s[0]} by {
        assert s == [s[0]] + s[1..];
      }
    }
  }

  /** The records of `[h] + t` carrying `v`: `h` if it does, then those of `t`. */
  lemma WithCpuCons(h: ProcRecord, t: seq<ProcRecord>, v: real)
    ensures WithCpu([h] + t, v) == (if h.cpu == v then [h] else []) + WithCpu(t, v)
  {
    assert ([h] + t)[0] == h && ([h] + t)[1..] == t;
  }

  /** Inserting `x` puts it ahead of the records it ties with. */
  lemma {:induction false} InsertWithCpu(x: ProcRecord, s: seq<ProcRecord>, v: real)
    requires SortedByCpu(s)
    ensures WithCpu(Insert(x, s), v) == (if x.cpu == v then [x] else []) + WithCpu(s, v)
  {
    if |s| == 0 || x.cpu >= s[0].cpu {
      WithCpuCons(x, s, v);
    } else {
      var mark := if x.cpu == v then [x] else [];
      var head := if s[0].cpu == v then [s[0]] else [];
      var tail := s[1..];
      SortedTail(s);
      var rest := Insert(x, tail);
      InsertWithCpu(x, tail, v);
      WithCpuCons(s[0], rest, v);
      WithCpuCons(s[0], tail, v);
      assert s == [s[0]] + tail;
      // `x` and `s[0]` cannot both carry `v`: `x` has the smaller CPU%.
      assert head == [] || mark == [];
      assert head + (mark + WithCpu(tail, v)) == mark + (head + WithCpu(tail, v));
    }
  }

  /** The sort is stable: for every CPU% value, the records carrying it come
      out in the order they went in. */
  lemma {:induction false} SortIsStable(s: seq<ProcRecord>, v: real)
    ensures WithCpu(SortByCpu(s), v) == WithCpu(s, v)
  {
    if |s| > 0 {
      SortIsStable(s[1..], v);
      InsertWithCpu(s[0], SortByCpu(s[1..]), v);
    }
  }

  lemma HeadKept(s: seq<ProcRecord>)
    ensures |s| > 0 ==> WithCpu(s, s[0].cpu) != []
  {
  }

  /** A record carrying `v` in the filter was in the list. */
  lemma {:induction false} WithCpuMember(s: seq<ProcRecord>, v: real, y: ProcRecord)
    requires y in WithCpu(s, v)
    ensures y in s
  {
    WithCpuCons(s[0], s[1..], v);
    assert s == [s[0]] + s[1..];
    if y != s[0] {
      WithCpuMember(s[1..], v, y);
    }
  }

  /** The head of a sorted list has the highest CPU% in it. */
  lemma HeadIsHighest(a: seq<ProcRecord>, y: ProcRecord)
    requires SortedByCpu(a) && y in a
    ensures a[0].cpu >= y.cpu
  {
    var k :| 0 <= k < |a| && a[k] == y;
    if k > 0 {
      assert a[0].cpu >= a[k].cpu;
    }
  }

  /** Two sorted lists that agree on every CPU% value start with the same
      record: both heads carry the highest CPU% of either list, and each is
      the first record with that value. */
  lemma SameHead(a: seq<ProcRecord>, b: seq<ProcRecord>)
    requires SortedByCpu(a) && SortedByCpu(b) && 0 < |a| && 0 < |b|
    requires forall v :: WithCpu(a, v) == WithCpu(b, v)
    ensures a[0] == b[0]
  {
    var m := a[0].cpu;
    var n := b[0].cpu;
    assert WithCpu(b, n)[0] == b[0];
    WithCpuMember(a, n, b[0]);
    HeadIsHighest(a, b[0]);
    assert WithCpu(a, m)[0] == a[0];
    WithCpuMember(b, m, a[0]);
    HeadIsHighest(b, a[0]);
  }

  /** Dropping the same head from two lists that agree on every CPU% value
      leaves two lists that still agree. */
  lemma TailsAgree(a: seq<ProcRecord>, b: seq<ProcRecord>)
    requires 0 < |a| && 0 < |b| && a[0] == b[0]
    requires forall v :: WithCpu(a, v) == WithCpu(b, v)
    ensures forall v :: WithCpu(a[1..], v) == WithCpu(b[1..], v)
  {
    forall v
      ensures WithCpu(a[1..], v) == WithCpu(b[1..], v)
    {
      assert WithCpu(a, v) == WithCpu(b, v);
      if a[0].cpu == v {
        assert WithCpu(a[1..], v) == WithCpu(a, v)[1..];
        assert WithCpu(b[1..], v) == WithCpu(b, v)[1..];
      } else {
        assert WithCpu(a[1..], v) == WithCpu(a, v);
        assert WithCpu(b[1..], v) == WithCpu(b, v);
      }
    }
  }

  /** Two lists sorted by CPU% that agree, for every CPU% value, on the order
      of the records carrying it, are the same list. */
  lemma {:induction false} SortedAndStableIsUnique(a: seq<ProcRecord>, b: seq<ProcRecord>)
    requires SortedByCpu(a) && SortedByCpu(b)
    requires forall v :: WithCpu(a, v) == WithCpu(b, v)
    ensures a == b
    decreases |a|
  {
    if |a| == 0 && |b| == 0 {
      return;
    }
    if |a| == 0 || |b| == 0 {
      HeadKept(a);
      HeadKept(b);
      assert false;
    }
    SameHead(a, b);
    TailsAgree(a, b);
    SortedTail(a);
    SortedTail(b);
    SortedAndStableIsUnique(a[1..], b[1..]);
    assert a == [a[0]] + a[1..];
    assert b == [b[0]] + b[1..];
  }

  /** The ranking is the only arrangement of its input that is sorted by CPU%
      and keeps ties in input order. */
  lemma RankingIsTheStableSort(s: seq<ProcRecord>, r: seq<ProcRecord>)
    requires SortedByCpu(r)
    requires forall v :: WithCpu(r, v) == WithCpu(s, v)
    ensures r == SortByCpu(s)
  {
    forall v
      ensures WithCpu(r, v) == WithCpu(SortByCpu(s), v)
    {
      SortIsStable(s, v);
    }
    SortedAndStableIsUnique(r, SortByCpu(s));
  }
}

=== FILE: render.dfy ===
/** Frame geometry: what each page puts on the screen
    (`draw_box`, `draw_process_page`, `draw_summary_and_cpu_page` and the
    size check of `draw`, src/ptop/main.py:94-172).

    A frame is computed, not painted: the process page is the list of rows
    it shows, the summary page the memory figures and one bar per graph
    column. The curses calls that paint them are not part of the model. */
module Render {
  import opened Wrappers
  import opened Text
  import opened Memory
  import opened Processes

  /** Below these the dashboard only shows a notice. */
  const MinHeight := 16
  const MinWidth := 60

  const TooSmallNotice := "Terminal too small! Please resize to at least 60x16."

  predicate TooSmall(height: int, width: int) {
    height < MinHeight || width < MinWidth
  }

  /** The size of a box once `draw_box` has clamped it to the window. */
  datatype Box = Box(h: int, w: int)

  /** `draw_box`'s clamp: the box is cut at the window's bottom and right
      edges, and a box thinner than 2 is not drawn at all. */
  function ClampBox(maxY: int, maxX: int, y: int, x: int, h: int, w: int): (r: Option<Box>)
    ensures r.None? <==> h < 2 || w < 2 || maxY - y < 2 || maxX - x < 2
    ensures r.Some? ==> 2 <= r.value.h <= h && 2 <= r.value.w <= w
    ensures r.Some? ==> y + r.value.h <= maxY && x + r.value.w <= maxX
    ensures r.Some? ==> (r.value.h == h || y + r.value.h == maxY) && (r.value.w == w || x + r.value.w == maxX)
  {
    var ch := Min(h, maxY - y);
    var cw := Min(w, maxX - x);
    if ch < 2 || cw < 2 then None else Some(Box(ch, cw))
  }

  /** One line of the process page, before it is formatted. */
  datatype Row = Row(pid: int, user: string, cpu: real, mem: real, cmd: string)

  /** The user name is cut to 10 characters and the command to what is left
      of the box after the fixed columns: `box_w - 35`, that is `width - 37`. */
  function RowOf(p: ProcRecord, width: int): (row: Row)
    requires width >= MinWidth
    ensures row.pid == p.pid && row.cpu == p.cpu && row.mem == p.mem
    ensures row.user <= p.user && |row.user| == Min(10, |p.user|)
    ensures row.cmd <= p.cmd && |row.cmd| == Min(width - 37, |p.cmd|)
  {
    Row(p.pid, Take(p.user, 10), p.cpu, p.mem, Take(p.cmd, width - 37))
  }

  /** `processes[offset:offset + box_h - 2]` with `box_h = height - 2`: the
      page shows `height - 4` rows starting at the scroll offset, fewer when
      the list runs out, none when the offset is past its end. */
  function ProcessRows(processes: seq<ProcRecord>, offset: nat, height: int, width: int): (rows: seq<Row>)
    requires !TooSmall(height, width)
    ensures |rows| <= height - 4
    ensures |processes| <= offset ==> rows == []
    ensures offset < |processes| ==> |rows| == Min(height - 4, |processes| - offset)
    ensures forall i :: 0 <= i < |rows| ==> offset + i < |processes| && rows[i] == RowOf(processes[offset + i], width)
  {
    var boxHeight := height - 2;
    var shown := Slice(processes, offset, offset + boxHeight - 2);
    seq(|shown|, i requires 0 <= i < |shown| => RowOf(shown[i], width))
  }

  /** Python's `int(x)` on a float: truncation toward zero. */
  function Trunc(x: real): (n: int)
    ensures 0.0 <= x ==> n as real <= x < n as real + 1.0
    ensures x < 0.0 ==> n as real - 1.0 < x <= n as real
  {
    if x >= 0.0 then x.Floor else -((-x).Floor)
  }

  /** One column of the CPU graph: where it is drawn, the sample it shows and
      how many cells high its bar is. */
  datatype Bar = Bar(column: int, sample: real, height: int)

  /** The graph's height, `box_h`, and width, `right_w`. */
  function GraphHeight(height: int): int {
    height - 2
  }

  function GraphWidth(width: int): int {
    width - width / 2 - 1
  }

  /** The bar of graph column `i`, counted from the right: the `i`-th newest
      sample, drawn `i` columns left of `width - 2`, as many cells high as the
      whole part of its share of the graph's height. */
  function BarAt(history: seq<real>, i: nat, height: int, width: int): (bar: Bar)
    requires i < |history|
    ensures bar.sample == history[|history| - 1 - i] && bar.column == width - 2 - i
    ensures 0.0 <= bar.sample && 0 <= GraphHeight(height) ==>
      0 <= bar.height && bar.height as real <= bar.sample / 100.0 * GraphHeight(height) as real < bar.height as real + 1.0
  {
    var sample := history[|history| - 1 - i];
    var share := sample / 100.0 * GraphHeight(height) as real;
    assert 0.0 <= sample && 0 <= GraphHeight(height) ==> 0.0 <= share;
    Bar(width - i - 2, sample, Trunc(share))
  }

  /** The loop of the graph: one bar per column for `min(len(history),
      right_w)` columns, column `i` showing `history[-i-1]`. */
  function Bars(history: seq<real>, height: int, width: int): (bars: seq<Bar>)
    requires !TooSmall(height, width)
    ensures |bars| == Min(|history|, GraphWidth(width))
    ensures forall i :: 0 <= i < |bars| ==> bars[i] == BarAt(history, i, height, width)
  {
    var n := Min(|history|, GraphWidth(width));
    seq(n, i requires 0 <= i < n => BarAt(history, i, height, width))
  }

  /** The rows `range(bar_height)` paints: `graph_height - j + 1` for each `j`,
      that is bottom-up from the last row above the footer, one cell per row,
      with no gap. */
  function BarCells(bar: Bar, height: int): (rows: seq<int>)
    ensures |rows| == if bar.height <= 0 then 0 else bar.height
    ensures forall j :: 0 <= j < |rows| ==> rows[j] == height - 1 - j
    ensures forall y :: y in rows <==> height - |rows| <= y <= height - 1
  {
    var n := if bar.height <= 0 then 0 else bar.height;
    var rows := seq(n, j => GraphHeight(height) - j + 1);
    forall y | height - n <= y <= height - 1
      ensures y in rows
    {
      assert rows[height - 1 - y] == y;
    }
    rows
  }

  /** The newest sample is drawn at the right edge and older ones to its
      left, one column each, all in the right half of the screen. */
  lemma BarsRunRightToLeft(history: seq<real>, height: int, width: int)
    requires !TooSmall(height, width) && 0 < |history|
    ensures Bars(history, height, width)[0].sample == history[|history| - 1]
    ensures Bars(history, height, width)[0].column == width - 2
    ensures forall i :: 0 <= i < |Bars(history, height, width)| ==>
      width / 2 <= Bars(history, height, width)[i].column <= width - 2
    ensures forall i, j :: 0 <= i < j < |Bars(history, height, width)| ==>
      Bars(history, height, width)[j].column < Bars(history, height, width)[i].column
  {
  }

  /** A sample within [0, 100] gives a bar between 0 and the graph's height,
      and every cell of it lands on a screen row between 1 and height - 1. */
  lemma BarFitsGraph(history: seq<real>, i: nat, height: int, width: int)
    requires !TooSmall(height, width) && i < |history|
    requires 0.0 <= history[|history| - 1 - i] <= 100.0
    ensures 0 <= BarAt(history, i, height, width).height <= GraphHeight(height)
    ensures forall k :: 0 <= k < |BarCells(BarAt(history, i, height, width), height)| ==>
      1 <= BarCells(BarAt(history, i, height, width), height)[k] <= height - 1
  {
    var u := history[|history| - 1 - i];
    var g := GraphHeight(height) as real;
    assert 0.0 <= u / 100.0 * g <= g by {
      assert 0.0 <= u / 100.0 <= 1.0;
    }
    assert BarAt(history, i, height, width).height as real <= u / 100.0 * g;
  }

  /** What one tick puts on the screen. */
  datatype Frame =
    | Notice(text: string)
    | ProcessPage(rows: seq<Row>)
    | SummaryPage(memory: MemInfo, bars: seq<Bar>)

  /** The frame for page 0 (processes) or page 1 (summary and CPU graph).
      The process list is read only on page 0 and the memory figures only on
      page 1; an exception while reading the one the page needs ends the
      program, since the drawing code does not catch it. */
  function RenderFrame(page: int, offset: nat, height: int, width: int,
                       snapshot: Result<seq<ProcRecord>>, memory: Result<MemInfo>,
                       history: seq<real>): (r: Result<Frame>)
    requires page == 0 || page == 1
    ensures TooSmall(height, width) <==> r == Ok(Notice(TooSmallNotice))
    ensures !TooSmall(height, width) && page == 0 ==> (r.Ok? <==> snapshot.Ok?)
    ensures !TooSmall(height, width) && page == 1 ==> (r.Ok? <==> memory.Ok?)
    ensures r.Ok? && r.value.ProcessPage? ==> page == 0 && r.value.rows == ProcessRows(snapshot.value, offset, height, width)
    ensures r.Ok? && r.value.SummaryPage? ==> page == 1 && r.value.bars == Bars(history, height, width)
    ensures !TooSmall(height, width) && page == 0 && r.Ok? ==>
      r.value == ProcessPage(ProcessRows(snapshot.value, offset, height, width))
    ensures !TooSmall(height, width) && page == 1 && r.Ok? ==>
      r.value == SummaryPage(memory.value, Bars(history, height, width))
  {
    if TooSmall(height, width) then Ok(Notice(TooSmallNotice))
    else if page == 0 then
      var processes :- snapshot;
      Ok(ProcessPage(ProcessRows(processes, offset, height, width)))
    else
      var figures :- memory;
      Ok(SummaryPage(figures, Bars(history, height, width)))
  }

  /** A 40-column, 10-row terminal gets the notice and no process rows. */
  lemma SmallTerminalShowsNotice(page: int, offset: nat, snapshot: Result<seq<ProcRecord>>,
                                 memory: Result<MemInfo>, history: seq<real>)
    requires page == 0 || page == 1
    ensures RenderFrame(page, offset, 10, 40, snapshot, memory, history) == Ok(Notice(TooSmallNotice))
  {
  }
}

=== FILE: snapshot.dfy ===
/** The process snapshot of one tick: `read_processes`
    (src/ptop/main.py:35-77).

    Every numeric entry of the `/proc` listing is read as one record; a
    record whose reading raises is left out and the listing goes on; the
    records read are ranked by CPU%. The total memory is read first, outside
    the per-process `try`, so a malformed `MemTotal:` line fails the whole
    snapshot. */
module Snapshot {
  import opened Wrappers
  import opened Text
  import opened Memory
  import opened Processes
  import opened Ranking

  /** One name of the `/proc` listing with the files under it. */
  datatype DirEntry = DirEntry(name: string, files: ProcFiles)

  /** `str.isdigit` on a listing name: non-empty and all digits. These are
      exactly the names `int(pid)` converts that start with a digit, and
      each converts to the number it spells. */
  predicate IsPidName(name: string)
    ensures IsPidName(name) <==> 0 < |name| && IsDigit(name[0]) && ParseInt(name).Some?
    ensures IsPidName(name) ==> AllDigits(name) && ParseInt(name) == Some(DigitsValue(name) as int)
  {
    0 < |name| && AllDigits(name)
  }

  /** What the `try` around one listing entry yields: the record read, or
      None for a non-numeric name or a reading that raised. */
  function Attempt(e: DirEntry, host: Host, totalKb: int): (r: Option<ProcRecord>)
    ensures r.Some? <==> IsPidName(e.name) && ReadRecord(DigitsValue(e.name), e.files, host, totalKb).Ok?
    ensures r.Some? ==> r.value == ReadRecord(DigitsValue(e.name), e.files, host, totalKb).value
  {
    if !IsPidName(e.name) then None
    else
      match ReadRecord(DigitsValue(e.name), e.files, host, totalKb)
      case Err(_) => None
      case Ok(x) => Some(x)
  }

  /** Entry `i` of the listing is a process that reads as `x`. */
  predicate ReadsAs(entries: seq<DirEntry>, host: Host, totalKb: int, i: int, x: ProcRecord) {
    0 <= i < |entries| && Attempt(entries[i], host, totalKb) == Some(x)
  }

  /** The loop of `read_processes`: the records read, in listing order, with
      the processes whose reading raised left out. */
  function Collect(entries: seq<DirEntry>, host: Host, totalKb: int): (r: seq<ProcRecord>)
    ensures |r| <= |entries|
  {
    if |entries| == 0 then []
    else Listed(entries[0], host, totalKb) + Collect(entries[1..], host, totalKb)
  }

  /** What one entry adds to the list: its record, or nothing when reading
      it raised. */
  function Listed(e: DirEntry, host: Host, totalKb: int): (r: seq<ProcRecord>)
    ensures |r| <= 1
  {
    match Attempt(e, host, totalKb)
    case None => []
    case Some(x) => [x]
  }

  /** The listing is walked in order: the records of two runs of entries are
      those of the first followed by those of the second. */
  lemma {:induction false} CollectAppend(a: seq<DirEntry>, b: seq<DirEntry>, host: Host, totalKb: int)
    ensures Collect(a + b, host, totalKb) == Collect(a, host, totalKb) + Collect(b, host, totalKb)
    decreases |a|
  {
    if |a| == 0 {
      assert a + b == b;
    } else {
      assert (a + b)[0] == a[0];
      assert (a + b)[1..] == a[1..] + b;
      CollectAppend(a[1..], b, host, totalKb);
    }
  }

  /** A single entry contributes its record, or nothing when it fails. */
  lemma CollectOne(e: DirEntry, host: Host, totalKb: int)
    ensures Collect([e], host, totalKb) == (match Attempt(e, host, totalKb) case Some(x) => [x] case None => [])
  {
    assert [e][1..] == [];
  }

  /** Every entry that reads as a record contributes it. */
  lemma {:induction false} CollectComplete(entries: seq<DirEntry>, host: Host, totalKb: int, i: int, x: ProcRecord)
    requires ReadsAs(entries, host, totalKb, i, x)
    ensures x in Collect(entries, host, totalKb)
    decreases i
  {
    var rest := Collect(entries[1..], host, totalKb);
    if i > 0 {
      assert entries[1..][i - 1] == entries[i];
      CollectComplete(entries[1..], host, totalKb, i - 1, x);
      assert x in rest;
    }
  }

  /** Every record collected comes from an entry that reads as it. */
  lemma {:induction false} CollectSound(entries: seq<DirEntry>, host: Host, totalKb: int, x: ProcRecord)
    requires x in Collect(entries, host, totalKb)
    ensures exists i :: ReadsAs(entries, host, totalKb, i, x)
  {
    var tail := entries[1..];
    if Attempt(entries[0], host, totalKb) == Some(x) {
      assert ReadsAs(entries, host, totalKb, 0, x);
    } else {
      assert x in Collect(tail, host, totalKb);
      CollectSound(tail, host, totalKb, x);
      var i :| ReadsAs(tail, host, totalKb, i, x);
      assert entries[i + 1] == tail[i];
      assert ReadsAs(entries, host, totalKb, i + 1, x);
    }
  }

  /** A record is collected exactly when some listing entry reads as it. */
  lemma CollectMembers(entries: seq<DirEntry>, host: Host, totalKb: int, x: ProcRecord)
    ensures x in Collect(entries, host, totalKb) <==> exists i :: ReadsAs(entries, host, totalKb, i, x)
  {
    if x in Collect(entries, host, totalKb) {
      CollectSound(entries, host, totalKb, x);
    }
    if exists i :: ReadsAs(entries, host, totalKb, i, x) {
      var i :| ReadsAs(entries, host, totalKb, i, x);
      CollectComplete(entries, host, totalKb, i, x);
    }
  }

  /** `read_processes`: the ranked snapshot, or the exception raised while
      reading the total memory. */
  function ReadProcesses(meminfo: seq<Fields>, host: Host, entries: seq<DirEntry>): (r: Result<seq<ProcRecord>>)
    ensures r.Ok? <==> TotalMemory(meminfo).Ok?
    ensures r.Ok? ==> SortedByCpu(r.value)
    ensures r.Ok? ==> multiset(r.value) == multiset(Collect(entries, host, TotalMemory(meminfo).value))
    ensures r.Ok? ==> forall v :: WithCpu(r.value, v) == WithCpu(Collect(entries, host, TotalMemory(meminfo).value), v)
  {
    var totalKb :- TotalMemory(meminfo);
    var read := Collect(entries, host, totalKb);
    SortPermutes(read);
    assert forall v :: WithCpu(SortByCpu(read), v) == WithCpu(read, v) by {
      forall v ensures WithCpu(SortByCpu(read), v) == WithCpu(read, v) {
        SortIsStable(read, v);
      }
    }
    Ok(SortByCpu(read))
  }

  /** A process is in the snapshot exactly when its listing entry is numeric
      and its reading succeeds: processes whose reading raised are missing,
      and they do not take any other process out with them. */
  lemma SnapshotHoldsExactlyTheReadable(meminfo: seq<Fields>, host: Host, entries: seq<DirEntry>, x: ProcRecord)
    requires ReadProcesses(meminfo, host, entries).Ok?
    ensures x in ReadProcesses(meminfo, host, entries).value <==>
      exists i :: ReadsAs(entries, host, TotalMemory(meminfo).value, i, x)
  {
    var snapshot := ReadProcesses(meminfo, host, entries).value;
    var read := Collect(entries, host, TotalMemory(meminfo).value);
    assert x in snapshot <==> x in multiset(snapshot);
    assert x in read <==> x in multiset(read);
    CollectMembers(entries, host, TotalMemory(meminfo).value, x);
  }

  /** A failing process anywhere in the listing changes nothing else: the
      snapshot is the same as if its entry were not there. */
  lemma {:induction false} FailureIsSkipped(a: seq<DirEntry>, e: DirEntry, b: seq<DirEntry>, host: Host, totalKb: int)
    requires Attempt(e, host, totalKb).None?
    ensures Collect(a + [e] + b, host, totalKb) == Collect(a + b, host, totalKb)
  {
    if |a| == 0 {
      assert a + [e] + b == [e] + b;
      assert ([e] + b)[1..] == b;
      assert a + b == b;
    } else {
      FailureIsSkipped(a[1..], e, b, host, totalKb);
      assert (a + [e] + b)[0] == a[0] && (a + [e] + b)[1..] == a[1..] + [e] + b;
      assert (a + b)[0] == a[0] && (a + b)[1..] == a[1..] + b;
    }
  }
}

=== FILE: text.dfy ===
/** The string and sequence handling the dashboard relies on: Python's
    `int(...)` on one field, `str.strip`, `startswith`, slicing, field access
    with `IndexError`, and the search for the first line carrying a given
    prefix.

    A text file such as `/proc/meminfo` or `/proc/<pid>/status` is modelled as
    a sequence of lines, each already split on whitespace into its fields
    (`Fields`). Those files never start a line with blanks, so Python's
    `line.startswith(p)` is the same as "the first field starts with p". */
module Text {
  import opened Wrappers

  type Fields = seq<string>

  function Min(a: int, b: int): int {
    if a <= b then a else b
  }

  predicate IsDigit(c: char) {
    '0' <= c <= '9'
  }

  predicate AllDigits(s: string) {
    forall i :: 0 <= i < |s| ==> IsDigit(s[i])
  }

  function DigitValue(c: char): (d: nat)
    requires IsDigit(c)
    ensures d < 10
  {
    (c as int) - ('0' as int)
  }

  function DigitChar(d: nat): (c: char)
    requires d < 10
    ensures IsDigit(c) && DigitValue(c) == d
  {
    (('0' as int) + d) as char
  }

  /** The value of a run of decimal digits, most significant digit first. */
  function DigitsValue(s: string): nat
    requires AllDigits(s)
  {
    if |s| == 0 then 0 else 10 * DigitsValue(s[..|s| - 1]) + DigitValue(s[|s| - 1])
  }

  /** Python's `int(field)` on a field that holds no whitespace: an optional
      `+` or `-` followed by at least one ASCII digit; anything else is a
      `ValueError`, here `None`. */
  function ParseInt(s: string): (r: Option<int>)
    ensures r.Some? <==> 0 < |s| && (AllDigits(s) || ((s[0] == '+' || s[0] == '-') && 1 < |s| && AllDigits(s[1..])))
    ensures r.Some? && AllDigits(s) ==> r.value == DigitsValue(s)
    ensures r.Some? && s[0] == '+' ==> r.value == DigitsValue(s[1..])
    ensures r.Some? && s[0] == '-' ==> r.value == -(DigitsValue(s[1..]) as int)
    ensures r.Some? && 0 < |s| && IsDigit(s[0]) ==> r.value >= 0
    ensures r.Some? && 0 < |s| && s[0] == '-' ==> r.value <= 0
  {
    if 0 < |s| && (s[0] == '-' || s[0] == '+') then
      var digits := s[1..];
      if 0 < |digits| && AllDigits(digits) then
        var v: int := if s[0] == '-' then -(DigitsValue(digits) as int) else DigitsValue(digits);
        Some(v)
      else None
    else if 0 < |s| && AllDigits(s) then Some(DigitsValue(s))
    else None
  }

  /** Decimal rendering of a natural number, as the kernel writes counters. */
  function ShowNat(n: nat): (s: string)
    ensures 0 < |s|
  {
    if n < 10 then [DigitChar(n)] else ShowNat(n / 10) + [DigitChar(n % 10)]
  }

  /** Decimal rendering of an integer, with a leading `-` when negative. */
  function ShowInt(n: int): string {
    if n < 0 then "-" + ShowNat(-n) else ShowNat(n)
  }

  lemma {:induction false} ShowNatDigits(n: nat)
    ensures AllDigits(ShowNat(n))
    ensures DigitsValue(ShowNat(n)) == n
  {
    if n >= 10 {
      ShowNatDigits(n / 10);
      var s := ShowNat(n);
      assert s[..|s| - 1] == ShowNat(n / 10);
    }
  }

  /** A non-empty run of digits reads as its value, with or without a `-`. */
  lemma ParseDigits(s: string)
    requires 0 < |s| && AllDigits(s)
    ensures ParseInt(s) == Some(DigitsValue(s) as int)
    ensures ParseInt("-" + s) == Some(-(DigitsValue(s) as int))
  {
    assert !(s[0] == '-' || s[0] == '+');
    var t := "-" + s;
    assert t[0] == '-' && t[1..] == s;
  }

  /** Every integer written in decimal reads back as itself. */
  lemma ParseShowRoundTrip(n: int)
    ensures ParseInt(ShowInt(n)) == Some(n)
  {
    if n < 0 {
      ShowNatDigits(-n);
      ParseDigits(ShowNat(-n));
    } else {
      ShowNatDigits(n);
      ParseDigits(ShowNat(n));
    }
  }

  /** Python's `s[:k]` for a non-negative `k`. */
  function Take<T>(s: seq<T>, k: nat): (r: seq<T>)
    ensures |r| == if k < |s| then k else |s|
    ensures r <= s
  {
    if k < |s| then s[..k] else s
  }

  /** Python's `s[lo:hi]` for non-negative bounds: both are clamped to the
      length, and a reversed range is empty. */
  function Slice<T>(s: seq<T>, lo: nat, hi: nat): (r: seq<T>)
    ensures lo <= hi && lo <= |s| ==> |r| == (if hi < |s| then hi else |s|) - lo
    ensures hi <= lo || |s| <= lo ==> r == []
    ensures forall i :: 0 <= i < |r| ==> lo + i < |s| && r[i] == s[lo + i]
  {
    var a := if lo < |s| then lo else |s|;
    var b := if hi < |s| then hi else |s|;
    if a <= b then s[a..b] else []
  }

  /** The characters Python's `str.strip()` removes. */
  const Whitespace: set<char> := {
    ' ', '\t', '\n', '\r', '\U{000B}', '\U{000C}', '\U{001C}', '\U{001D}',
    '\U{001E}', '\U{001F}', '\U{0085}', '\U{00A0}', '\U{1680}', '\U{2000}',
    '\U{2001}', '\U{2002}', '\U{2003}', '\U{2004}', '\U{2005}', '\U{2006}',
    '\U{2007}', '\U{2008}', '\U{2009}', '\U{200A}', '\U{2028}', '\U{2029}',
    '\U{202F}', '\U{205F}', '\U{3000}'
  }

  /** Drops the longest prefix made of characters in `drop`. */
  function StripLeft(s: string, drop: set<char>): (r: string)
    ensures |r| <= |s| && r == s[|s| - |r|..]
    ensures forall i :: 0 <= i < |s| - |r| ==> s[i] in drop
    ensures 0 < |r| ==> r[0] !in drop
  {
    if 0 < |s| && s[0] in drop then StripLeft(s[1..], drop) else s
  }

  /** Drops the longest suffix made of characters in `drop`. */
  function StripRight(s: string, drop: set<char>): (r: string)
    ensures |r| <= |s| && r == s[..|r|]
    ensures forall i :: |r| <= i < |s| ==> s[i] in drop
    ensures 0 < |r| ==> r[|r| - 1] !in drop
  {
    if 0 < |s| && s[|s| - 1] in drop then StripRight(s[..|s| - 1], drop) else s
  }

  /** `r` is `s` from position `k` on, less only characters of `drop` at
      either end. */
  predicate CutAt(s: string, r: string, drop: set<char>, k: int) {
    && 0 <= k <= |s| - |r|
    && r == s[k..k + |r|]
    && (forall i :: 0 <= i < k ==> s[i] in drop)
    && (forall i :: k + |r| <= i < |s| ==> s[i] in drop)
  }

  /** The position of the first character of `s` not in `drop`, or `|s|`. */
  function Lead(s: string, drop: set<char>): (k: nat)
    ensures k <= |s|
    ensures forall i :: 0 <= i < k ==> s[i] in drop
    ensures k < |s| ==> s[k] !in drop
  {
    if 0 < |s| && s[0] in drop then 1 + Lead(s[1..], drop) else 0
  }

  /** Python's `s.strip(chars)`: both ends lose their characters from `drop`;
      the result is empty exactly when every character of `s` is in `drop`.
      `StripKeepsTheMiddle` says which part of `s` it is. */
  function Strip(s: string, drop: set<char>): (r: string)
    ensures |r| <= |s|
    ensures 0 < |r| ==> r[0] !in drop && r[|r| - 1] !in drop
    ensures r == [] <==> forall i :: 0 <= i < |s| ==> s[i] in drop
  {
    StripRight(StripLeft(s, drop), drop)
  }

  /** Stripping removes characters of `drop` at the two ends and nothing
      else: the result is the run of `s` that starts at its first character
      outside `drop`. */
  lemma StripKeepsTheMiddle(s: string, drop: set<char>)
    ensures CutAt(s, Strip(s, drop), drop, Lead(s, drop))
  {
    var left := StripLeft(s, drop);
    LeadIsStripped(s, drop);
    TwoCuts(s, left, StripRight(left, drop), drop);
  }

  /** A cut of a cut: dropping a prefix of `s` and then a suffix of the rest,
      both of characters in `drop`. */
  lemma TwoCuts(s: string, left: string, r: string, drop: set<char>)
    requires |left| <= |s| && left == s[|s| - |left|..]
    requires forall i :: 0 <= i < |s| - |left| ==> s[i] in drop
    requires |r| <= |left| && r == left[..|r|]
    requires forall i :: |r| <= i < |left| ==> left[i] in drop
    ensures CutAt(s, r, drop, |s| - |left|)
  {
    var k := |s| - |left|;
    forall i | k + |r| <= i < |s|
      ensures s[i] in drop
    {
      assert s[i] == left[i - k];
    }
  }

  lemma {:induction false} LeadIsStripped(s: string, drop: set<char>)
    ensures Lead(s, drop) == |s| - |StripLeft(s, drop)|
  {
    if 0 < |s| && s[0] in drop {
      LeadIsStripped(s[1..], drop);
    }
  }

  /** Python's `line.startswith(prefix)` on a line given by its fields. */
  predicate LineStartsWith(line: Fields, prefix: string) {
    0 < |line| && prefix <= line[0]
  }

  /** Line `i` is the first one that starts with `prefix`. */
  predicate FirstMatch(lines: seq<Fields>, prefix: string, i: int) {
    && 0 <= i < |lines|
    && LineStartsWith(lines[i], prefix)
    && forall k :: 0 <= k < i ==> !LineStartsWith(lines[k], prefix)
  }

  predicate NoMatch(lines: seq<Fields>, prefix: string) {
    forall k :: 0 <= k < |lines| ==> !LineStartsWith(lines[k], prefix)
  }

  /** There is at most one first line. */
  lemma FirstMatchUnique(lines: seq<Fields>, prefix: string, i: int, j: int)
    requires FirstMatch(lines, prefix, i) && FirstMatch(lines, prefix, j)
    ensures i == j
  {
  }

  /** The position of the first line that starts with `prefix`, as Python's
      `next(line for line in lines if line.startswith(prefix))` finds it. */
  function FirstWithPrefix(lines: seq<Fields>, prefix: string): (r: Option<nat>)
    ensures r.Some? ==> FirstMatch(lines, prefix, r.value)
    ensures r.None? <==> NoMatch(lines, prefix)
  {
    if |lines| == 0 then None
    else if LineStartsWith(lines[0], prefix) then Some(0)
    else
      match FirstWithPrefix(lines[1..], prefix)
      case None => None
      case Some(i) => Some(i + 1)
  }

  /** `fields[i]`, which raises `IndexError` past the end. */
  function Field(fields: Fields, i: nat): (r: Result<string>)
    ensures r.Ok? <==> i < |fields|
    ensures r.Ok? ==> r.value == fields[i]
  {
    if i < |fields| then Ok(fields[i]) else Err(IndexError)
  }

  /** `int(fields[i])`: `IndexError` past the end, `ValueError` when the field
      is not an integer. */
  function IntField(fields: Fields, i: nat): (r: Result<int>)
    ensures r.Ok? <==> i < |fields| && ParseInt(fields[i]).Some?
    ensures r.Ok? ==> ParseInt(fields[i]) == Some(r.value)
    ensures i >= |fields| ==> r == Err(IndexError)
    ensures i < |fields| && ParseInt(fields[i]).None? ==> r == Err(ValueError)
  {
    if i < |fields| then
      match ParseInt(fields[i])
      case Some(v) => Ok(v)
      case None => Err(ValueError)
    else Err(IndexError)
  }
}

=== FILE: wrappers.dfy ===
/** Failure-carrying values for the model.

    `Option` stands for a Python value that may be `None`; `Result` stands for a
    computation that may raise one of the Python exceptions the dashboard's code
    can run into while reading and converting `/proc` data. */
module Wrappers {

  datatype Option<+T> = None | Some(value: T)

  /** The exception classes that the modelled Python code can raise. `OSError`
      stands for a `/proc` file that vanished or could not be opened. */
  datatype Fault =
    | IndexError
    | ValueError
    | KeyError
    | StopIteration
    | ZeroDivisionError
    | OSError

  /** The outcome of a Python computation: a value, or the exception it raised. */
  datatype Result<+T> = Ok(value: T) | Err(fault: Fault) {

    predicate IsFailure() {
      Err?
    }

    function PropagateFailure<U>(): Result<U>
      requires Err?
    {
      Err(fault)
    }

    function Extract(): T
      requires Ok?
    {
      value
    }
  }

  /** An optional file content read as a `Result`: `None` means the open failed. */
  function FromFile<T>(o: Option<T>): (r: Result<T>)
    ensures o.None? <==> r == Err(OSError)
    ensures o.Some? ==> r == Ok(o.value)
  {
    match o
    case None => Err(OSError)
    case Some(v) => Ok(v)
  }
}
